=== FILE: README.md ===
# Safe-Step sensor fusion, modelled in Dafny

Safe-Step is a wearable hazard announcer for blind and low-vision pedestrians.
It runs on a Raspberry Pi with two cameras, a TF-Luna single-point LiDAR and a
Bluetooth LE link to a phone. Each camera frame goes through the same fusion
loop:

1. The object detectors produce labelled boxes.
2. A stereo disparity map turns each box into a distance. The distance is the
   median valid disparity inside the box, reprojected at the box centre.
3. Frames without any box candidate fall back to the nearest valid pixel of
   the whole map, announced as an "obstacle".
4. The closest candidate is cross-checked against one LiDAR reading. If the two
   disagree by more than 100 cm, the LiDAR distance wins.
5. A decision rule chooses whether to announce it.

The repository has two deployments of this loop, and they are modelled apart,
each with its own constants:

- `main/expov3.py` (module `ExpoV3`, with `ReportGate`) uses:
  - crosswalk boxes from an ONNX model, clamped to the image, at confidence
    0.3 or more;
  - YOLO boxes at confidence 0.7 or more, whose distance must lie in
    (0, 10000) cm;
  - a fallback kept only inside (21, 5000) cm;
  - a debounce: the same label is announced again only when it is at least
    100 cm closer;
  - a five-second cooldown between sent messages.
- `main/main.py` (module `MainVariant`) uses:
  - general and crosswalk YOLO boxes without a confidence filter, whose
    distance must lie in (0, 5000] cm;
  - a fallback kept only inside (21, 5000] cm;
  - a message on every frame in which some candidate (after the LiDAR
    correction) is closer than 500 cm;
  - `get_direction`'s thirds of the image;
  - a frame that ends in a `KeyError` when the announced candidate is the
    direction-less fallback obstacle. This is modelled as an explicit outcome.

The shared modules are:

- `TfLuna`: the 9-byte LiDAR frame and the non-blocking serial poll.
- `StereoDepth`: the disparity grid, box regions with numpy slice semantics,
  the masked median and the nearest-valid-pixel scan.
- `Stats`: numpy's median.
- `Sorting`: Python's stable `sort(key=...)` and numpy's first-occurrence
  `argmin`.
- `Fusion`: candidates, choosing the closest one, and LiDAR arbitration.

The calibrated reprojection through the matrix Q (`cv2.reprojectImageTo3D`)
is a parameter `z` of type `Reprojection`. It maps a disparity and a pixel to
the Z coordinate in metres, and the model multiplies it by 100 to get
centimetres, as the code does.

Three range details are easy to misread, and the model follows the code as
written:

- The expov3 YOLO range is open at 10000 cm (`0 < distance_cm < 10000`), not
  closed.
- The expov3 fallback range is open at 5000 cm.
- expov3's crosswalk loop applies no range check at all to a crosswalk's
  distance.

## Model

| member | source | states |
|---|---|---|
| TfLuna.Le16 | main/expov3.py:70-72 | the little-endian 16-bit field is below 65536 and its low and high bytes are recovered by `% 256` and `/ 256` |
| TfLuna.Decode | main/expov3.py:69-73 | a frame decodes exactly when both header bytes are 0x59; distance and strength lie in [0, 65536) and temperature in [-256, 7936) °C |
| TfLuna.Poll | main/expov3.py:65-74 | a sample is produced exactly when at least 9 bytes are buffered and the first two are 0x59; reading 9 or more bytes empties the buffer, fewer leaves it untouched; the sample is the decoding of the first 9 bytes |
| TfLuna.DecodeEncode | main/expov3.py:69-73 | decoding the frame the sensor sends for a reading gives that reading back, whatever the checksum byte |
| TfLuna.EncodeDecode | main/expov3.py:69-73 | every frame with a valid header is the encoding of the fields decoded from it |
| Sorting.Insert | main/expov3.py:269 | insertion adds exactly one element (multiset), and the new head is either the inserted element or the old head |
| Sorting.InsertSorted | main/expov3.py:269 | inserting into a sorted list keeps it sorted by the key |
| Sorting.SortBy | main/expov3.py:269 | the sort is a permutation of its input (multiset equality) and is ordered by the key |
| Sorting.ArgMinFirst | main/expov3.py:263 | the index holds a least key, and every earlier index holds a strictly greater key (numpy's first minimum) |
| Sorting.SortHeadIsFirstMin | main/main.py:254-255 | the head of the stable sort is the element at the first-minimum index |
| Sorting.SameElements | main/main.py:267 | lists with the same multiset of elements have the same members |
| Stats.Middle | main/main.py:110 | the middle of a sorted list lies between its two middle elements |
| Stats.Median | main/main.py:110 | the median lies between the least and the greatest sample |
| Stats.MedianWithin | main/expov3.py:191-195 | if every sample lies in an open interval, so does the median |
| Stats.MedianOfConstant | main/expov3.py:195 | the median of equal samples is that sample |
| Stats.MedianPermutation | main/expov3.py:195 | the median does not depend on the order of the samples |
| Stats.MedianOfSorted | main/main.py:110 | the median of a sorted list is its middle element, or the mean of its two middle elements |
| Stats.SortedUnique | main/main.py:110 | two sorted lists of reals with the same multiset are equal |
| Stats.MedianOfOneOrTwo | main/main.py:137-138 | the median of one reading is that reading; of two readings it is their mean, in either order |
| Stats.MedianOfDescendingPair | main/main.py:137-138 | the median of a descending pair is still the mean of the two |
| Wrappers.FilterMap | main/expov3.py:224-254 | the loop keeps a value exactly when some input yields it, never more values than inputs, and is empty exactly when no input yields one |
| Wrappers.FilterMapEnumerates | main/expov3.py:224-254 | the loop's result is one value per input that yields one, in input order, and nothing else: some increasing list of positions picks out exactly the yielding inputs, and the values are theirs |
| StereoDepth.Slice | main/expov3.py:190 | `row[a:b]` has length `min(b, len(row)) - a` (0 when that is negative) and its i-th element is `row[a + i]`; a value is in it exactly when it sits at a column in [a, b) that exists in the row |
| StereoDepth.KeepWithin | main/expov3.py:191 | the mask keeps every occurrence of each value strictly inside (lo, hi), with its multiplicity, and no other value |
| StereoDepth.RegionRows | main/expov3.py:190-191 | the rows from y on contribute exactly the disparities of the valid pixels that lie in the box, one per pixel, in row-major order |
| StereoDepth.RegionValues | main/expov3.py:190-195 | `region[mask]` is exactly the list of disparities of the map's valid pixels inside the box, one per pixel, in row-major order; it is non-empty exactly when some pixel of the box is valid |
| StereoDepth.RegionMedian | main/expov3.py:190-197 | there is no median exactly when no pixel of the box is valid; otherwise it is the median of the valid in-box pixels' disparities, counted once per pixel, and lies strictly inside (lo, hi), so `median_disp <= 0` never fires |
| StereoDepth.CenterInMap | main/expov3.py:201-203 | a box inside the frame that holds a valid pixel has its centre pixel inside the map |
| StereoDepth.RegionMedianUniform | main/expov3.py:225-230 | a box uniformly filled with a valid disparity d has median d |
| StereoDepth.RowPixels | main/expov3.py:259 | one row's valid pixels from column x on: all of them and nothing else, left to right |
| StereoDepth.GridPixels | main/expov3.py:259 | the valid pixels from row y on: all of them and nothing else, in row-major order |
| StereoDepth.ValidPixels | main/expov3.py:259-262 | a pixel is listed exactly when the mask keeps it, and the list is in row-major order |
| StereoDepth.Nearest | main/expov3.py:259-264 | there is no result exactly when no pixel is valid; the result is valid and at least as near as every valid pixel, and strictly nearer than every valid pixel before it in row-major order |
| Fusion.Closest | main/expov3.py:269-270 | the chosen candidate is one of the list, no candidate is nearer, and every candidate before it is strictly farther |
| Fusion.Arbitrate | main/expov3.py:272-277 | label and direction are kept; the distance changes exactly when a sample exists and differs from it by more than the tolerance, and then becomes the sample's |
| Fusion.Select | main/expov3.py:268-277 | the frame acts on the closest candidate with its label and direction; without a LiDAR sample, or with one within the tolerance of its distance, it is that candidate unchanged; with a sample further off, it is that candidate with the sample's distance; its distance always ends within the tolerance of the sample |
| Fusion.ArbitrateAgreesWithLidar | main/expov3.py:272-277 | with a sample, the corrected distance is within the tolerance of it; without one, the candidate is unchanged |
| Fusion.ArbitrateIdempotent | main/main.py:258-263 | correcting twice against the same sample equals correcting once |
| ReportGate.Gate | main/expov3.py:279-302 | a message is sent exactly when the debounce allows a report and 5 s have passed since the last send; it carries label, direction (ahead by default) and distance; a report updates the last label and distance even when the cooldown holds the message back; a non-report changes nothing |
| ReportGate.ShouldReportCases | main/expov3.py:279-284 | a label different from the last reported one is always reported; the same label is reported exactly when a distance was recorded and the object is at least 100 cm closer, and then at any smaller distance too |
| ReportGate.GateKeepsConsistent | main/expov3.py:301-302 | the last label and the last distance are always set together |
| ReportGate.FirstObjectReported | main/expov3.py:280-293 | from the initial state any object is reported, and it is sent once 5 s have passed since the epoch |
| ReportGate.RepeatSuppressed | main/expov3.py:279-304 | the same candidate right after its report is not reported again and leaves the state alone |
| ReportGate.DebounceExamples | main/expov3.py:279-284 | after person at 300 cm: person at 250 cm is suppressed, person at 190 cm and car at 290 cm are reported |
| ExpoV3.Clamp | main/expov3.py:108-109 | each corner is the incoming value clamped to 0 or to the last column or row, and is never moved away from the image |
| ExpoV3.ClampIdempotent | main/expov3.py:108-109 | clamping twice equals clamping once, and a box already inside the image is unchanged |
| ExpoV3.FilterCrosswalks | main/expov3.py:98-113 | every kept box passed the 0.3 threshold and is clamped into the image, and the clamp of every raw box at or above the threshold is kept |
| ExpoV3.FilterCrosswalksSound | main/expov3.py:98-113 | every kept box is the clamp of some raw box at or above the threshold |
| ExpoV3.FilterCrosswalksEnumerate | main/expov3.py:98-113 | the kept list is exactly one clamped box per raw box at or above the threshold, in the raw order, and nothing else |
| ExpoV3.DirectionOf | main/expov3.py:205-210 | left exactly when the centre is more than 20% of the width left of `width // 2`; right exactly when it is more than 20% right |
| ExpoV3.DirectionMonotone | main/expov3.py:241-248 | a centre further right never gets a direction further left, and `width // 2` is ahead |
| ExpoV3.CrosswalkCandidate | main/expov3.py:188-216 | a crosswalk box gives a candidate exactly when it holds a valid disparity; the candidate is labelled crosswalk, carries the box centre's direction, and its distance is the box centre reprojected at the median of the box's valid disparities, with no range check |
| ExpoV3.YoloCandidate | main/expov3.py:224-254 | a YOLO box gives a candidate exactly when its confidence is at least 0.7, it holds a valid disparity, and the median's distance is strictly inside (0, 10000); the candidate keeps the label, carries the centre's direction and has that distance |
| ExpoV3.CrosswalkBoxes | main/expov3.py:108-111 | one fusion box per kept crosswalk box, in order, with the same four corners, each inside the frame |
| ExpoV3.CrosswalkCandidates | main/expov3.py:188-216 | a candidate is in the list exactly when some box yields it; each is a crosswalk with a direction; the list is no longer than the boxes and empty exactly when no box holds a valid disparity |
| ExpoV3.CrosswalkCandidatesEnumerate | main/expov3.py:188-216 | the crosswalk loop appends exactly one candidate per box that yields one, in box order, and nothing else |
| ExpoV3.YoloCandidates | main/expov3.py:224-254 | a candidate is in the list exactly when some YOLO box yields it; each has a direction and a distance in (0, 10000); the list is no longer than the boxes and empty exactly when no box yields one |
| ExpoV3.YoloCandidatesEnumerate | main/expov3.py:224-254 | the YOLO loop appends exactly one candidate per box that yields one, in box order, and nothing else |
| ExpoV3.DetectedCandidates | main/expov3.py:186-254 | every detected candidate has a direction and is a crosswalk or lies in (0, 10000) cm |
| ExpoV3.DetectedCandidatesOrder | main/expov3.py:186-254 | the detected list is the crosswalk loop's candidates followed by the YOLO loop's, the order the stable sort keeps among equal distances |
| ExpoV3.DetectedCandidatesMembers | main/expov3.py:186-254 | a candidate is detected exactly when a crosswalk box or a YOLO box yields it |
| ExpoV3.DetectedCandidatesEmpty | main/expov3.py:186-254 | no candidate is detected exactly when no box of either loop yields one |
| ExpoV3.Fallback | main/expov3.py:257-266 | the fallback is a direction-less obstacle whose distance is that of the nearest valid pixel (the first in row-major order among equals), kept only strictly inside (21, 5000) cm; it is absent exactly when no pixel is valid or the nearest one is outside that range |
| ExpoV3.FrameCandidates | main/expov3.py:257-266 | detected candidates when there are any; otherwise exactly the fallback, when it exists |
| ExpoV3.Frame | main/expov3.py:268-304 | with no candidate the frame sends nothing, keeps the state and does not touch the serial buffer; otherwise it polls the LiDAR once and gates the corrected closest candidate; a send happens only 5 s after the last one and records its time |
| ExpoV3.NoDepthEvidenceNoReport | main/expov3.py:186-268 | with no valid disparity anywhere, nothing is sent, the state is kept and the serial buffer is untouched, whatever the detectors found |
| ExpoV3.UniformBoxCandidates | main/expov3.py:224-254 | a lone confident box uniformly filled with a valid disparity is the frame's only candidate, at its reprojected distance |
| ExpoV3.UniformBoxReported | main/expov3.py:224-297 | the message for that box, with an agreeing LiDAR reading and a ready gate, names its label and direction and carries the depth distance |
| ExpoV3.LoneCandidateSent | main/expov3.py:268-297 | a frame whose only candidate agrees with the LiDAR sample, with a gate ready to report and send, sends that candidate unchanged |
| ExpoV3.SessionSendsSpaced | main/expov3.py:289-297 | over any run of frames, each sent message is at least 5 s after the previous one, and the first is 5 s after the initial last-send time |
| ExpoV3.SessionSendsUnfold | main/expov3.py:286-297 | a run's send times are the first frame's send, if any, followed by the rest of the run's |
| ExpoV3.SpacedPairwise | main/expov3.py:293 | spacing between neighbouring sends gives spacing between any two |
| ExpoV3.SessionCooldown | main/expov3.py:289-297 | any two messages of a run are at least 5 s apart |
| MainVariant.GetDirection | main/main.py:142-148 | left exactly when x < width/3; right exactly when x > 2·width/3 |
| MainVariant.GetDirectionMonotone | main/main.py:142-148 | a centre further right never gets a direction further left |
| MainVariant.HazardThreshold | main/main.py:150-151 | the hazard test is strict at 500 cm, and anything nearer than a hazard is a hazard |
| MainVariant.CenterReading | main/main.py:117-122 | the centre reading exists exactly when the centre pixel is valid, and is then that pixel's reprojected distance |
| MainVariant.MedianReading | main/main.py:124-129 | the median reading always exists (the `median_disp > 0` guard never fails) and is the box centre reprojected at the median of the valid in-box pixels' disparities |
| MainVariant.InRange | main/main.py:132-135 | a reading is kept, as itself, exactly when it is present and strictly inside (0, 5000) |
| MainVariant.Readings | main/main.py:117-135 | the readings are the centre reading, if present and inside (0, 5000), followed by the median reading under the same condition: nothing else, each at most once |
| MainVariant.MedianOfReadings | main/main.py:137-138 | the median of the readings is the single reading or the mean of the two, and lies in (0, 5000) |
| MainVariant.ObjectDistance | main/main.py:97-140 | no distance without a valid disparity in the box or without an in-range reading; with a valid disparity the centre pixel it indexes is in the map; otherwise the centre reading, the median reading, or their mean, always strictly inside (0, 5000) |
| MainVariant.CenterAgreesWithMedian | main/main.py:117-138 | when the centre pixel carries the median disparity, both readings coincide and the result is that distance when in range, else None |
| MainVariant.LoopCandidate | main/main.py:184-214 | a box gives a candidate exactly when it holds a valid disparity and the median's distance is in (0, 5000]; the candidate keeps the label and carries `get_direction` of the centre |
| MainVariant.LoopAcceptsRangeBoundary | main/main.py:203-204 | a median distance of exactly 5000 cm is accepted by the loop but dropped by `get_object_distance` |
| MainVariant.LoopCandidates | main/main.py:182-214 | a candidate is in the list exactly when some box (general boxes first, then crosswalk boxes) yields it; each has a direction and a distance in (0, 5000]; the list is no longer than the boxes and empty exactly when no box yields one |
| MainVariant.LoopCandidatesEnumerate | main/main.py:182-214 | the detection loop appends exactly one candidate per box that yields one, in box order, and nothing else |
| MainVariant.Fallback | main/main.py:216-250 | the fallback is a direction-less obstacle whose distance is that of the nearest valid pixel (the first in row-major order among equals), kept only when above 21 cm and within (0, 5000]; it is absent exactly when no pixel is valid or the nearest one is outside that range |
| MainVariant.FrameCandidates | main/main.py:174-250 | loop candidates when there are any; otherwise exactly the fallback, when it exists |
| MainVariant.AfterLidar | main/main.py:253-263 | the sorted list with its head corrected: same length, the head is the corrected closest candidate, the rest are the other candidates (multiset) and none is closer than the closest |
| MainVariant.SortedSplit | main/main.py:254-255 | the sorted list is the closest candidate followed by the others, none of them nearer |
| MainVariant.SameHazards | main/main.py:267 | lists holding the same candidates hold the same hazards |
| MainVariant.HazardsWithoutCorrection | main/main.py:254-267 | without a LiDAR sample, the corrected list holds a hazard exactly when the candidates do |
| MainVariant.Frame | main/main.py:253-279 | a frame is skipped exactly when there is no candidate, and then the serial buffer is untouched; otherwise it polls once; there is no hazard exactly when no corrected entry is under 500 cm; a message carries the corrected closest candidate; the frame fails on a missing direction exactly when there is a hazard and the closest has no direction |
| MainVariant.MissingDirectionIffFallbackHazard | main/main.py:247-278 | the KeyError happens exactly when no box gave a candidate and the fallback obstacle, after correction, is under 500 cm |
| MainVariant.HazardWithoutSample | main/main.py:258-272 | without a LiDAR sample, a frame announces (or fails) exactly when some candidate is under 500 cm |
| MainVariant.MessageAboutNonHazard | main/main.py:258-279 | a message about an object at 500 cm or more happens only when a LiDAR sample moved a closest hazard out of range, with another candidate still a hazard |
| MainVariant.HazardBehindHead | main/main.py:254-272 | if the corrected head is no hazard but some entry is, the LiDAR moved the head, which was a hazard, and the list has at least two entries |

## Left out

- Camera capture, the stereo matcher, rectification and the detectors (YOLO and the ONNX crosswalk network) are inputs: boxes, labels, confidences and the disparity grid. The `int()` scaling of network coordinates to the image is not modelled. Boxes arrive already in image pixels.
- The calibration matrix Q and `cv2.reprojectImageTo3D` are the `Reprojection` parameter. The model does not compute stereo geometry.
- The serial port is modelled as the list of bytes waiting in its input buffer. The Bluetooth LE server, `time.time()`, and the `asyncio` scheduling and thread dispatch are left out: the current time is a field of the frame, and a sent message is a `Message` value.
- expov3.py awaits the list that `asyncio.gather` already returned (`results = await results`), which would raise on every frame. The model follows the evident intent: `results` is the YOLO box list.
- Floating point: distances, disparities and the direction thresholds (`0.2 * width`, `width / 3`) are exact reals.
- Message text: the strings built for the phone ("to the left" vs "left", one-decimal rounding of metres) are not modelled. A message is its label, direction and distance.
- Drawing, the debug `print` calls, the OpenCV windows and the `q` key exit are left out.
- Shutdown and resource release in `main()` are left out.
- `Sensors/lidar.py` and the calibration scripts are not part of this model.
- ExpoV3.WellFormed: a crosswalk box that passes the threshold but lies entirely left of or above the image has a negative clamped corner. numpy would read that slice with negative-index wrap-around. Such frames are excluded by `WellFormed` rather than modelled.
- Detector boxes are assumed to lie inside the image (`InFrame`): YOLO clips its boxes, and clamped crosswalk boxes do by construction. `ExpoV3.WellFormed` states this for expov3 frames. In main.py, both `get_object_distance` and the detection loop itself (main.py:201) index the centre pixel of the reprojected map and rely on the same assumption; `ObjectDistance` takes it as its requirement.
- MainVariant.LoopCandidate: reads the reprojection through the total `Reprojection` function, so for a box whose centre lies outside the image it yields a candidate where main.py:201 would raise an IndexError; `LoopCandidates` and `MainVariant.Frame` inherit this.
- Stats.Median: its own contract states only that the median lies between the least and the greatest sample. The exact value is stated by `MedianOfSorted` together with `MedianPermutation`.
- main.py applies no confidence filter of its own. Any filtering, such as YOLO's library default of 0.25, happens inside the detector and is not modelled.

=== FILE: expov3.dfy ===
/** The debounced, rate-limited deployment (expov3.py): crosswalk and YOLO
    boxes become candidates from the disparity map, a nearest-pixel fallback
    covers frames without any, the LiDAR corrects the closest one, and the
    report gate decides whether to notify. */
module ExpoV3 {
  import opened Wrappers
  import opened StereoDepth
  import opened Fusion
  import opened ReportGate
  import TfLuna

  const ValidDispMin: real := 1.0
  const ValidDispMax: real := 128.0
  const CrosswalkConfThreshold: real := 0.3
  const YoloConfThreshold: real := 0.7
  /** YOLO candidates must lie strictly inside (0, YoloMaxRangeCm). */
  const YoloMaxRangeCm: real := 10000.0
  /** The fallback keeps the nearest pixel only strictly inside (NoiseFloorCm, FallbackMaxRangeCm). */
  const NoiseFloorCm: real := 21.0
  const FallbackMaxRangeCm: real := 5000.0
  const LidarToleranceCm: real := 100.0
  const CrosswalkName: string := "crosswalk"
  const ObstacleName: string := "obstacle"

  /** A crosswalk-model box already scaled to the image, with integer corners
      that may lie outside it. */
  datatype CrosswalkBox = CrosswalkBox(x1: int, y1: int, x2: int, y2: int, confidence: real)

  /** Clamps the corners into the image: x1, y1 up to 0 and x2, y2 down to
      the last column and row. */
  function Clamp(c: CrosswalkBox, width: nat, height: nat): (r: CrosswalkBox)
    ensures r.confidence == c.confidence
    ensures 0 <= r.x1 && c.x1 <= r.x1 && (r.x1 == 0 || r.x1 == c.x1)
    ensures 0 <= r.y1 && c.y1 <= r.y1 && (r.y1 == 0 || r.y1 == c.y1)
    ensures r.x2 <= width - 1 && r.x2 <= c.x2 && (r.x2 == width - 1 || r.x2 == c.x2)
    ensures r.y2 <= height - 1 && r.y2 <= c.y2 && (r.y2 == height - 1 || r.y2 == c.y2)
  {
    CrosswalkBox(if c.x1 < 0 then 0 else c.x1,
                 if c.y1 < 0 then 0 else c.y1,
                 if c.x2 < width - 1 then c.x2 else width - 1,
                 if c.y2 < height - 1 then c.y2 else height - 1,
                 c.confidence)
  }

  /** Clamping a box already inside the image leaves it unchanged, so
      clamping twice is clamping once. */
  lemma ClampIdempotent(c: CrosswalkBox, width: nat, height: nat)
    ensures Clamp(Clamp(c, width, height), width, height) == Clamp(c, width, height)
    ensures 0 <= c.x1 && 0 <= c.y1 && c.x2 < width && c.y2 < height ==> Clamp(c, width, height) == c
  {
  }

  /** One raw crosswalk box through `detect_crosswalk`'s check: dropped
      below the confidence threshold, clamped otherwise. */
  function CrosswalkKept(c: CrosswalkBox, width: nat, height: nat): Option<CrosswalkBox> {
    if c.confidence < CrosswalkConfThreshold then None else Some(Clamp(c, width, height))
  }

  /** `CrosswalkKept` as the per-box step of the filtering loop. */
  function CrosswalkKeptOf(width: nat, height: nat): CrosswalkBox -> Option<CrosswalkBox> {
    c => CrosswalkKept(c, width, height)
  }

  /** `detect_crosswalk` after inference: drops boxes with confidence below
      the threshold and clamps the rest. */
  function FilterCrosswalks(raw: seq<CrosswalkBox>, width: nat, height: nat): (r: seq<CrosswalkBox>)
    ensures |r| <= |raw|
    ensures forall i :: 0 <= i < |r| ==>
      r[i].confidence >= CrosswalkConfThreshold && 0 <= r[i].x1 && 0 <= r[i].y1
      && r[i].x2 <= width - 1 && r[i].y2 <= height - 1
    ensures forall c :: c in raw && c.confidence >= CrosswalkConfThreshold ==> Clamp(c, width, height) in r
  {
    var r := FilterMap(raw, CrosswalkKeptOf(width, height));
    forall i | 0 <= i < |r|
      ensures r[i].confidence >= CrosswalkConfThreshold && 0 <= r[i].x1 && 0 <= r[i].y1
      ensures r[i].x2 <= width - 1 && r[i].y2 <= height - 1
    {
      assert r[i] in r;
      var j :| 0 <= j < |raw| && CrosswalkKeptOf(width, height)(raw[j]) == Some(r[i]);
    }
    forall c | c in raw && c.confidence >= CrosswalkConfThreshold ensures Clamp(c, width, height) in r {
      var j :| 0 <= j < |raw| && raw[j] == c;
      assert CrosswalkKeptOf(width, height)(raw[j]) == Some(Clamp(c, width, height));
    }
    r
  }

  /** The kept boxes are the clamps of the boxes at or above the threshold,
      one per such box, in their original order. */
  lemma FilterCrosswalksEnumerate(raw: seq<CrosswalkBox>, width: nat, height: nat)
    ensures exists idx :: Enumerates(raw, CrosswalkKeptOf(width, height), FilterCrosswalks(raw, width, height), idx)
  {
    var f := CrosswalkKeptOf(width, height);
    FilterMapEnumerates(raw, f);
    var idx :| Enumerates(raw, f, FilterMap(raw, f), idx);
    assert FilterCrosswalks(raw, width, height) == FilterMap(raw, f);
    assert Enumerates(raw, f, FilterCrosswalks(raw, width, height), idx);
  }

  /** Every box `FilterCrosswalks` returns is the clamp of a raw box that
      passed the confidence threshold. */
  lemma FilterCrosswalksSound(raw: seq<CrosswalkBox>, width: nat, height: nat)
    ensures forall b :: b in FilterCrosswalks(raw, width, height) ==>
      exists c :: c in raw && c.confidence >= CrosswalkConfThreshold && b == Clamp(c, width, height)
  {
    forall b | b in FilterCrosswalks(raw, width, height)
      ensures exists c :: c in raw && c.confidence >= CrosswalkConfThreshold && b == Clamp(c, width, height)
    {
      var j :| 0 <= j < |raw| && CrosswalkKeptOf(width, height)(raw[j]) == Some(b);
      assert raw[j] in raw;
    }
  }

  /** The direction both expov3 loops assign: a dead zone of 20% of the width
      on either side of `width // 2`. */
  function DirectionOf(centerX: nat, width: nat): (d: Direction)
    ensures d == Left <==> (centerX as real) < ((width / 2) as real) - 0.2 * (width as real)
    ensures d == Right <==> (centerX as real) > ((width / 2) as real) + 0.2 * (width as real)
  {
    if (centerX as real) < ((width / 2) as real) - 0.2 * (width as real) then Left
    else if (centerX as real) > ((width / 2) as real) + 0.2 * (width as real) then Right
    else Ahead
  }

  /** Further right in the image never gives a direction further left, and
      the image centre is always "ahead". */
  lemma DirectionMonotone(x: nat, x': nat, width: nat)
    requires x <= x'
    ensures Rank(DirectionOf(x, width)) <= Rank(DirectionOf(x', width))
    ensures DirectionOf(width / 2, width) == Ahead
  {
  }

  /** A candidate from one clamped crosswalk box: needs a valid disparity in
      the box; there is no range check on its distance. */
  function CrosswalkCandidate(b: Box, g: Grid, z: Reprojection, width: nat): (r: Option<Candidate>)
    ensures r.Some? <==> HasValidPixel(g, b, ValidDispMin, ValidDispMax)
    ensures r.Some? ==> r.value.name == CrosswalkName && r.value.direction == Some(DirectionOf(CenterX(b), width))
    ensures r.Some? ==> r.value.distance == BoxDistance(z, b, RegionMedian(g, b, ValidDispMin, ValidDispMax).value)
  {
    match RegionMedian(g, b, ValidDispMin, ValidDispMax)
    case None => None
    case Some(m) =>
      if m <= 0.0 then None
      else Some(Candidate(CrosswalkName, BoxDistance(z, b, m), Some(DirectionOf(CenterX(b), width))))
  }

  /** A candidate from one YOLO box: needs confidence at least 0.7, a valid
      disparity in the box, and a distance strictly inside (0, 10000) cm. */
  function YoloCandidate(d: Detection, g: Grid, z: Reprojection, width: nat): (r: Option<Candidate>)
    ensures r.Some? <==>
      && d.confidence >= YoloConfThreshold
      && HasValidPixel(g, d.box, ValidDispMin, ValidDispMax)
      && 0.0 < BoxDistance(z, d.box, RegionMedian(g, d.box, ValidDispMin, ValidDispMax).value) < YoloMaxRangeCm
    ensures r.Some? ==> r.value.name == d.name && r.value.direction == Some(DirectionOf(CenterX(d.box), width))
    ensures r.Some? ==> r.value.distance == BoxDistance(z, d.box, RegionMedian(g, d.box, ValidDispMin, ValidDispMax).value)
  {
    if d.confidence < YoloConfThreshold then None
    else
      match RegionMedian(g, d.box, ValidDispMin, ValidDispMax)
      case None => None
      case Some(m) =>
        if m <= 0.0 then None
        else
          var distance := BoxDistance(z, d.box, m);
          if 0.0 < distance < YoloMaxRangeCm then
            Some(Candidate(d.name, distance, Some(DirectionOf(CenterX(d.box), width))))
          else None
  }

  /** The crosswalk box as the fusion sees it; needs the clamped far corner
      to be non-negative. */
  function ToBox(c: CrosswalkBox): Box
    requires 0 <= c.x1 && 0 <= c.y1 && 0 <= c.x2 && 0 <= c.y2
  {
    Box(c.x1, c.y1, c.x2, c.y2)
  }

  /** One camera frame and the serial buffer as the loop finds them. */
  datatype FrameInput = FrameInput(
    crosswalks: seq<CrosswalkBox>,
    detections: seq<Detection>,
    disparity: Grid,
    width: nat,
    height: nat,
    serial: seq<TfLuna.byte>,
    now: real)

  /** The frame is a `width` x `height` map, YOLO boxes lie in it, and every
      crosswalk box that passes the threshold reaches into the image
      (clamping then leaves no negative corner). */
  ghost predicate WellFormed(f: FrameInput) {
    && 1 <= f.width && 1 <= f.height
    && IsMap(f.disparity, f.width, f.height)
    && (forall d :: d in f.detections ==> InFrame(d.box, f.width, f.height))
    && (forall c :: c in f.crosswalks && c.confidence >= CrosswalkConfThreshold ==> 0 <= c.x2 && 0 <= c.y2)
  }

  /** The crosswalk boxes after filtering and clamping, as fusion boxes
      inside the frame: one per kept box, with the same corners, in order. */
  function CrosswalkBoxes(f: FrameInput): (r: seq<Box>)
    requires WellFormed(f)
    ensures var kept := FilterCrosswalks(f.crosswalks, f.width, f.height);
      && |r| == |kept|
      && forall i :: 0 <= i < |r| ==>
           r[i].x1 == kept[i].x1 && r[i].y1 == kept[i].y1 && r[i].x2 == kept[i].x2 && r[i].y2 == kept[i].y2
    ensures forall i :: 0 <= i < |r| ==> InFrame(r[i], f.width, f.height)
  {
    var kept := FilterCrosswalks(f.crosswalks, f.width, f.height);
    assert forall i :: 0 <= i < |kept| ==> 0 <= kept[i].x2 && 0 <= kept[i].y2 by {
      FilterCrosswalksSound(f.crosswalks, f.width, f.height);
      forall i | 0 <= i < |kept| ensures 0 <= kept[i].x2 && 0 <= kept[i].y2 {
        assert kept[i] in kept;
        var c :| c in f.crosswalks && c.confidence >= CrosswalkConfThreshold && kept[i] == Clamp(c, f.width, f.height);
      }
    }
    seq(|kept|, i requires 0 <= i < |kept| => ToBox(kept[i]))
  }

  /** `CrosswalkCandidate` as the per-box step of the crosswalk loop. */
  function CrosswalkCandidateOf(g: Grid, z: Reprojection, width: nat): Box -> Option<Candidate> {
    b => CrosswalkCandidate(b, g, z, width)
  }

  /** The crosswalk loop: a candidate is produced exactly for the boxes
      holding a valid disparity. */
  function CrosswalkCandidates(boxes: seq<Box>, g: Grid, z: Reprojection, width: nat): (r: seq<Candidate>)
    ensures |r| <= |boxes|
    ensures forall c :: c in r <==> exists i :: 0 <= i < |boxes| && CrosswalkCandidate(boxes[i], g, z, width) == Some(c)
    ensures forall c :: c in r ==> c.name == CrosswalkName && c.direction.Some?
    ensures r == [] <==> forall i :: 0 <= i < |boxes| ==> !HasValidPixel(g, boxes[i], ValidDispMin, ValidDispMax)
  {
    FilterMap(boxes, CrosswalkCandidateOf(g, z, width))
  }

  /** The crosswalk loop appends one candidate per box that yields one, in
      box order, and nothing else. */
  lemma CrosswalkCandidatesEnumerate(boxes: seq<Box>, g: Grid, z: Reprojection, width: nat)
    ensures exists idx :: Enumerates(boxes, CrosswalkCandidateOf(g, z, width), CrosswalkCandidates(boxes, g, z, width), idx)
  {
    var f := CrosswalkCandidateOf(g, z, width);
    FilterMapEnumerates(boxes, f);
    var idx :| Enumerates(boxes, f, FilterMap(boxes, f), idx);
    assert CrosswalkCandidates(boxes, g, z, width) == FilterMap(boxes, f);
    assert Enumerates(boxes, f, CrosswalkCandidates(boxes, g, z, width), idx);
  }

  /** `YoloCandidate` as the per-box step of the YOLO loop. */
  function YoloCandidateOf(g: Grid, z: Reprojection, width: nat): Detection -> Option<Candidate> {
    d => YoloCandidate(d, g, z, width)
  }

  /** The YOLO loop: a candidate is produced exactly for the confident boxes
      with a valid disparity and an in-range distance. */
  function YoloCandidates(dets: seq<Detection>, g: Grid, z: Reprojection, width: nat): (r: seq<Candidate>)
    ensures |r| <= |dets|
    ensures forall c :: c in r <==> exists i :: 0 <= i < |dets| && YoloCandidate(dets[i], g, z, width) == Some(c)
    ensures forall c :: c in r ==> c.direction.Some? && 0.0 < c.distance < YoloMaxRangeCm
    ensures r == [] <==> forall i :: 0 <= i < |dets| ==> YoloCandidate(dets[i], g, z, width).None?
  {
    FilterMap(dets, YoloCandidateOf(g, z, width))
  }

  /** The YOLO loop appends one candidate per box that yields one, in box
      order, and nothing else. */
  lemma YoloCandidatesEnumerate(dets: seq<Detection>, g: Grid, z: Reprojection, width: nat)
    ensures exists idx :: Enumerates(dets, YoloCandidateOf(g, z, width), YoloCandidates(dets, g, z, width), idx)
  {
    var f := YoloCandidateOf(g, z, width);
    FilterMapEnumerates(dets, f);
    var idx :| Enumerates(dets, f, FilterMap(dets, f), idx);
    assert YoloCandidates(dets, g, z, width) == FilterMap(dets, f);
    assert Enumerates(dets, f, YoloCandidates(dets, g, z, width), idx);
  }

  /** The candidates of the two detection loops, crosswalks first. */
  function DetectedCandidates(f: FrameInput, z: Reprojection): (r: seq<Candidate>)
    requires WellFormed(f)
    ensures forall c :: c in r ==> c.direction.Some?
    ensures forall c :: c in r ==> c.name == CrosswalkName || 0.0 < c.distance < YoloMaxRangeCm
  {
    CrosswalkCandidates(CrosswalkBoxes(f), f.disparity, z, f.width)
      + YoloCandidates(f.detections, f.disparity, z, f.width)
  }

  /** The crosswalk candidates come first, then the YOLO ones: the order
      the stable sort falls back on for equal distances. */
  lemma DetectedCandidatesOrder(f: FrameInput, z: Reprojection)
    requires WellFormed(f)
    ensures DetectedCandidates(f, z) ==
      CrosswalkCandidates(CrosswalkBoxes(f), f.disparity, z, f.width) + YoloCandidates(f.detections, f.disparity, z, f.width)
  {
  }

  /** A candidate is detected exactly when one crosswalk box or one YOLO box yields it. */
  lemma DetectedCandidatesMembers(f: FrameInput, z: Reprojection)
    requires WellFormed(f)
    ensures var boxes, r := CrosswalkBoxes(f), DetectedCandidates(f, z);
      forall c :: c in r <==>
        || (exists i :: 0 <= i < |boxes| && CrosswalkCandidate(boxes[i], f.disparity, z, f.width) == Some(c))
        || (exists i :: 0 <= i < |f.detections| && YoloCandidate(f.detections[i], f.disparity, z, f.width) == Some(c))
  {
    var boxes := CrosswalkBoxes(f);
    var cs := CrosswalkCandidates(boxes, f.disparity, z, f.width);
    var ys := YoloCandidates(f.detections, f.disparity, z, f.width);
    var r := DetectedCandidates(f, z);
    assert r == cs + ys;
    forall c
      ensures c in r <==>
        || (exists i :: 0 <= i < |boxes| && CrosswalkCandidate(boxes[i], f.disparity, z, f.width) == Some(c))
        || (exists i :: 0 <= i < |f.detections| && YoloCandidate(f.detections[i], f.disparity, z, f.width) == Some(c))
    {
      assert c in r <==> c in cs || c in ys;
    }
  }

  /** No candidate is detected exactly when no box of either loop yields one. */
  lemma DetectedCandidatesEmpty(f: FrameInput, z: Reprojection)
    requires WellFormed(f)
    ensures var boxes, r := CrosswalkBoxes(f), DetectedCandidates(f, z);
      r == [] <==>
        && (forall i :: 0 <= i < |boxes| ==> CrosswalkCandidate(boxes[i], f.disparity, z, f.width).None?)
        && (forall i :: 0 <= i < |f.detections| ==> YoloCandidate(f.detections[i], f.disparity, z, f.width).None?)
  {
    var cs := CrosswalkCandidates(CrosswalkBoxes(f), f.disparity, z, f.width);
    var ys := YoloCandidates(f.detections, f.disparity, z, f.width);
    assert DetectedCandidates(f, z) == cs + ys;
    assert DetectedCandidates(f, z) == [] <==> cs == [] && ys == [];
  }

  /** The frame-wide fallback: the nearest valid pixel becomes an "obstacle"
      without direction, provided its distance is strictly inside (21, 5000). */
  function Fallback(g: Grid, z: Reprojection): (r: Option<Candidate>)
    ensures r.Some? ==> r.value.name == ObstacleName && r.value.direction.None?
    ensures r.Some? ==> NoiseFloorCm < r.value.distance < FallbackMaxRangeCm
    ensures r.Some? ==>
      && Nearest(g, z, ValidDispMin, ValidDispMax).Some?
      && r.value.distance == PixelDistance(z, Nearest(g, z, ValidDispMin, ValidDispMax).value)
    ensures r.Some? ==> forall q :: ValidPixelOf(g, q, ValidDispMin, ValidDispMax) ==> r.value.distance <= PixelDistance(z, q)
    ensures r.None? <==>
      || (forall p :: !ValidPixelOf(g, p, ValidDispMin, ValidDispMax))
      || !(NoiseFloorCm < PixelDistance(z, Nearest(g, z, ValidDispMin, ValidDispMax).value) < FallbackMaxRangeCm)
  {
    match Nearest(g, z, ValidDispMin, ValidDispMax)
    case None => None
    case Some(p) =>
      var distance := PixelDistance(z, p);
      if NoiseFloorCm < distance < FallbackMaxRangeCm then Some(Candidate(ObstacleName, distance, None))
      else None
  }

  /** All candidates of the frame: the detections' ones, or else at most the fallback obstacle. */
  function FrameCandidates(f: FrameInput, z: Reprojection): (r: seq<Candidate>)
    requires WellFormed(f)
    ensures DetectedCandidates(f, z) != [] ==> r == DetectedCandidates(f, z)
    ensures DetectedCandidates(f, z) == [] ==> (r == [] <==> Fallback(f.disparity, z).None?)
    ensures DetectedCandidates(f, z) == [] && r != [] ==> r == [Fallback(f.disparity, z).value]
  {
    var found := DetectedCandidates(f, z);
    if found != [] then found
    else
      match Fallback(f.disparity, z)
      case None => []
      case Some(c) => [c]
  }

  /** What a frame leaves behind: the gate state, the message sent (if any)
      and the serial buffer. */
  datatype Step = Step(state: GateState, sent: Option<Message>, serial: seq<TfLuna.byte>)

  /** The candidate handed to the gate: the closest one, corrected by the
      LiDAR sample polled from the buffer, so label and direction are kept and
      the distance ends within 100 cm of any sample. */
  function Selected(f: FrameInput, z: Reprojection): Candidate
    requires WellFormed(f)
    requires FrameCandidates(f, z) != []
  {
    Select(FrameCandidates(f, z), TfLuna.Poll(f.serial).0, LidarToleranceCm)
  }

  /** One iteration of `capture_and_detect` after the detectors and the
      depth map have produced their results. */
  function Frame(s: GateState, f: FrameInput, z: Reprojection): (r: Step)
    requires WellFormed(f)
    ensures FrameCandidates(f, z) == [] ==> r == Step(s, None, f.serial)
    ensures FrameCandidates(f, z) != [] ==>
      && r.serial == TfLuna.Poll(f.serial).1
      && GateResult(r.state, r.sent) == Gate(s, Selected(f, z), f.now)
    ensures r.sent.Some? ==> f.now - s.lastSent >= CooldownSeconds && r.state.lastSent == f.now
    ensures r.sent.None? ==> r.state.lastSent == s.lastSent
  {
    var cands := FrameCandidates(f, z);
    if cands == [] then Step(s, None, f.serial)
    else
      var (_, rest) := TfLuna.Poll(f.serial);
      var g := Gate(s, Selected(f, z), f.now);
      Step(g.state, g.sent, rest)
  }

  /** A map without any valid disparity yields no candidate whatever the
      detectors report: nothing is sent, nothing is read from the LiDAR and
      the gate state stays as it was. */
  lemma NoDepthEvidenceNoReport(s: GateState, f: FrameInput, z: Reprojection)
    requires WellFormed(f)
    requires forall p :: !ValidPixelOf(f.disparity, p, ValidDispMin, ValidDispMax)
    ensures Frame(s, f, z) == Step(s, None, f.serial)
  {
    var g := f.disparity;
    forall b: Box | true
      ensures !HasValidPixel(g, b, ValidDispMin, ValidDispMax)
    {
      if HasValidPixel(g, b, ValidDispMin, ValidDispMax) {
        var y, x :| InBox(g, b, y, x) && ValidDispMin < g[y][x] < ValidDispMax;
        assert ValidPixelOf(g, Pixel(x, y, g[y][x]), ValidDispMin, ValidDispMax);
      }
    }
    assert YoloCandidates(f.detections, g, z, f.width) == [];
    assert CrosswalkCandidates(CrosswalkBoxes(f), g, z, f.width) == [];
  }

  /** A confident YOLO box uniformly filled with the valid disparity `d`, alone
      in the frame, with a LiDAR reading that agrees to within 100 cm and a
      gate ready to report and send: the message names the box's label and
      carries the depth-derived distance, not the LiDAR's. */
  lemma UniformBoxReported(s: GateState, f: FrameInput, z: Reprojection, d: real)
    requires WellFormed(f)
    requires f.crosswalks == [] && |f.detections| == 1
    requires f.detections[0].confidence >= YoloConfThreshold
    requires ValidDispMin < d < ValidDispMax
    requires exists y, x :: InBox(f.disparity, f.detections[0].box, y, x)
    requires forall y, x :: InBox(f.disparity, f.detections[0].box, y, x) ==> f.disparity[y][x] == d
    requires 0.0 < BoxDistance(z, f.detections[0].box, d) < YoloMaxRangeCm
    requires TfLuna.Poll(f.serial).0.Some?
    requires Abs(TfLuna.Poll(f.serial).0.value.distance as real - BoxDistance(z, f.detections[0].box, d)) <= LidarToleranceCm
    requires s.lastName != Some(f.detections[0].name)
    requires f.now - s.lastSent >= CooldownSeconds
    ensures Frame(s, f, z).sent == Some(Message(f.detections[0].name,
                                                DirectionOf(CenterX(f.detections[0].box), f.width),
                                                BoxDistance(z, f.detections[0].box, d)))
  {
    var det := f.detections[0];
    var c := Candidate(det.name, BoxDistance(z, det.box, d), Some(DirectionOf(CenterX(det.box), f.width)));
    UniformBoxCandidates(f, z, d);
    LoneCandidateSent(s, f, z, c);
  }

  /** A frame whose only candidate is `c`, with a LiDAR sample that agrees
      with it and a gate ready to report and send, sends `c` unchanged. */
  lemma LoneCandidateSent(s: GateState, f: FrameInput, z: Reprojection, c: Candidate)
    requires WellFormed(f)
    requires FrameCandidates(f, z) == [c]
    requires TfLuna.Poll(f.serial).0.Some?
    requires Abs(TfLuna.Poll(f.serial).0.value.distance as real - c.distance) <= LidarToleranceCm
    requires ShouldReport(s, c)
    requires f.now - s.lastSent >= CooldownSeconds
    ensures Frame(s, f, z).sent == Some(Message(c.name, SpokenDirection(c), c.distance))
  {
    assert Closest([c]) == c;
    assert Arbitrate(c, TfLuna.Poll(f.serial).0, LidarToleranceCm) == c;
    assert Selected(f, z) == c;
  }

  /** The frame of `UniformBoxReported` has exactly one candidate: the box,
      at the distance its uniform disparity gives. */
  lemma UniformBoxCandidates(f: FrameInput, z: Reprojection, d: real)
    requires WellFormed(f)
    requires f.crosswalks == [] && |f.detections| == 1
    requires f.detections[0].confidence >= YoloConfThreshold
    requires ValidDispMin < d < ValidDispMax
    requires exists y, x :: InBox(f.disparity, f.detections[0].box, y, x)
    requires forall y, x :: InBox(f.disparity, f.detections[0].box, y, x) ==> f.disparity[y][x] == d
    requires 0.0 < BoxDistance(z, f.detections[0].box, d) < YoloMaxRangeCm
    ensures FrameCandidates(f, z) == [Candidate(f.detections[0].name, BoxDistance(z, f.detections[0].box, d),
                                                Some(DirectionOf(CenterX(f.detections[0].box), f.width)))]
  {
    var det := f.detections[0];
    RegionMedianUniform(f.disparity, det.box, ValidDispMin, ValidDispMax, d);
    var c := Candidate(det.name, BoxDistance(z, det.box, d), Some(DirectionOf(CenterX(det.box), f.width)));
    assert YoloCandidate(det, f.disparity, z, f.width) == Some(c);
    assert f.detections[1..] == [];
    assert YoloCandidates(f.detections, f.disparity, z, f.width) == [c];
    assert CrosswalkBoxes(f) == [];
  }

  /** Every frame of a run is well formed. */
  ghost predicate AllWellFormed(frames: seq<FrameInput>)
    decreases |frames|
  {
    frames == [] || (WellFormed(frames[0]) && AllWellFormed(frames[1..]))
  }

  /** The send times of a run of frames starting from state `s`. */
  function SessionSends(s: GateState, frames: seq<FrameInput>, z: Reprojection): seq<real>
    requires AllWellFormed(frames)
    decreases |frames|
  {
    if frames == [] then []
    else
      var step := Frame(s, frames[0], z);
      (if step.sent.Some? then [frames[0].now] else []) + SessionSends(step.state, frames[1..], z)
  }

  /** Each time in `ts` is at least `gap` after the one before it, the first
      at least `gap` after `last`. */
  ghost predicate SpacedFrom(last: real, ts: seq<real>, gap: real)
    decreases |ts|
  {
    ts == [] || (ts[0] - last >= gap && SpacedFrom(ts[0], ts[1..], gap))
  }

  /** The cooldown over a whole run: consecutive messages are at least five
      seconds apart, and the first is five seconds after the last send the
      initial state remembers. */
  lemma {:induction false} SessionSendsSpaced(s: GateState, frames: seq<FrameInput>, z: Reprojection)
    requires AllWellFormed(frames)
    ensures SpacedFrom(s.lastSent, SessionSends(s, frames, z), CooldownSeconds)
    decreases |frames|
  {
    if frames == [] {
      assert SessionSends(s, frames, z) == [];
    } else {
      var step := Frame(s, frames[0], z);
      var tail := SessionSends(step.state, frames[1..], z);
      SessionSendsSpaced(step.state, frames[1..], z);
      SessionSendsUnfold(s, frames, z);
      if step.sent.Some? {
        var ts := [frames[0].now] + tail;
        assert ts[1..] == tail;
        assert SessionSends(s, frames, z) == ts;
        assert SpacedFrom(s.lastSent, ts, CooldownSeconds);
      } else {
        assert step.state.lastSent == s.lastSent;
        assert SessionSends(s, frames, z) == tail;
      }
    }
  }

  /** One step of a run: the first frame's send, if any, then the rest. */
  lemma SessionSendsUnfold(s: GateState, frames: seq<FrameInput>, z: Reprojection)
    requires frames != []
    requires AllWellFormed(frames)
    ensures var step := Frame(s, frames[0], z);
      && (step.sent.Some? ==> frames[0].now - s.lastSent >= CooldownSeconds && step.state.lastSent == frames[0].now)
      && (step.sent.None? ==> step.state.lastSent == s.lastSent)
      && SessionSends(s, frames, z)
         == (if step.sent.Some? then [frames[0].now] else []) + SessionSends(step.state, frames[1..], z)
  {
  }

  /** Spacing between neighbours gives spacing between any two sends. */
  lemma {:induction false} SpacedPairwise(last: real, ts: seq<real>, gap: real)
    requires 0.0 <= gap
    requires SpacedFrom(last, ts, gap)
    ensures forall i :: 0 <= i < |ts| ==> ts[i] - last >= gap
    ensures forall i, j :: 0 <= i < j < |ts| ==> ts[j] - ts[i] >= gap
    decreases |ts|
  {
    if ts != [] {
      SpacedPairwise(ts[0], ts[1..], gap);
      assert forall i :: 1 <= i < |ts| ==> ts[i] == ts[1..][i - 1];
    }
  }

  /** Any two messages of a run are at least five seconds apart. */
  lemma SessionCooldown(s: GateState, frames: seq<FrameInput>, z: Reprojection)
    requires AllWellFormed(frames)
    ensures forall i, j :: 0 <= i < j < |SessionSends(s, frames, z)| ==>
      SessionSends(s, frames, z)[j] - SessionSends(s, frames, z)[i] >= CooldownSeconds
  {
    SessionSendsSpaced(s, frames, z);
    SpacedPairwise(s.lastSent, SessionSends(s, frames, z), CooldownSeconds);
  }
}

=== FILE: fusion.dfy ===
/** The per-frame records both variants share: detections, fused candidates,
    the outbound message, picking the closest candidate and letting the LiDAR
    reading override its distance. */
module Fusion {
  import opened Wrappers
  import opened Sorting
  import opened StereoDepth
  import TfLuna

  /** Where a candidate lies horizontally in the left camera image. */
  datatype Direction = Left | Ahead | Right

  /** A detector's box with its class label and confidence score. */
  datatype Detection = Detection(box: Box, name: string, confidence: real)

  /** A labelled object at a distance (`name` is the detector's class label);
      the fallback obstacle has no direction. */
  datatype Candidate = Candidate(name: string, distance: real, direction: Option<Direction>)

  /** What is handed to the notification channel (the text rendering is not modelled). */
  datatype Message = Message(name: string, direction: Direction, distance: real)

  /** Position of a direction in left-to-right order. */
  function Rank(d: Direction): nat {
    match d
    case Left => 0
    case Ahead => 1
    case Right => 2
  }

  function ByDistance(c: Candidate): real { c.distance }

  function Abs(x: real): real { if x < 0.0 then -x else x }

  /** Both variants' `sorted(detected_objects, key=distance_cm)[0]`: the
      candidate with the least distance, the first of them in list order. */
  function Closest(cands: seq<Candidate>): (c: Candidate)
    requires |cands| > 0
    ensures c in cands
    ensures forall d :: d in cands ==> c.distance <= d.distance
    ensures exists i :: 0 <= i < |cands| && cands[i] == c
                     && forall j :: 0 <= j < i ==> c.distance < cands[j].distance
  {
    SortHeadIsFirstMin(cands, ByDistance);
    var i := ArgMinFirst(cands, ByDistance);
    assert forall d :: d in cands ==> ByDistance(cands[i]) <= ByDistance(d);
    SortBy(cands, ByDistance)[0]
  }

  /** The closest candidate after the LiDAR check: when a sample was read and
      it differs from the candidate's distance by more than `tolerance`, the
      sample's distance replaces it; label and direction are kept. */
  function Arbitrate(c: Candidate, sample: Option<TfLuna.Sample>, tolerance: real): (r: Candidate)
    requires 0.0 <= tolerance
    ensures r.name == c.name && r.direction == c.direction
    ensures r.distance == c.distance || (sample.Some? && r.distance == sample.value.distance as real)
    ensures r.distance != c.distance <==> sample.Some? && Abs(sample.value.distance as real - c.distance) > tolerance
  {
    if sample.Some? && Abs(sample.value.distance as real - c.distance) > tolerance then
      c.(distance := sample.value.distance as real)
    else c
  }

  /** The candidate a frame acts on in both variants: the closest one,
      checked against the LiDAR sample. It keeps the closest candidate's label
      and direction; without a sample, or with one that agrees within
      `tolerance`, it is that candidate itself; with one that disagrees it
      takes the sample's distance, so the distance always ends within
      `tolerance` of the sample. */
  function Select(cands: seq<Candidate>, sample: Option<TfLuna.Sample>, tolerance: real): (c: Candidate)
    requires |cands| > 0 && 0.0 <= tolerance
    ensures c.name == Closest(cands).name && c.direction == Closest(cands).direction
    ensures sample.None? ==> c == Closest(cands)
    ensures sample.Some? ==> Abs(sample.value.distance as real - c.distance) <= tolerance
    ensures c.distance == Closest(cands).distance || (sample.Some? && c.distance == sample.value.distance as real)
    ensures sample.Some? && Abs(sample.value.distance as real - Closest(cands).distance) <= tolerance ==> c == Closest(cands)
    ensures sample.Some? && Abs(sample.value.distance as real - Closest(cands).distance) > tolerance ==>
      c == Closest(cands).(distance := sample.value.distance as real)
  {
    ArbitrateAgreesWithLidar(Closest(cands), sample, tolerance);
    Arbitrate(Closest(cands), sample, tolerance)
  }

  /** After arbitration the distance is never further than `tolerance` from
      the LiDAR reading, and without a reading nothing changes. */
  lemma ArbitrateAgreesWithLidar(c: Candidate, sample: Option<TfLuna.Sample>, tolerance: real)
    requires 0.0 <= tolerance
    ensures sample.Some? ==> Abs(sample.value.distance as real - Arbitrate(c, sample, tolerance).distance) <= tolerance
    ensures sample.None? ==> Arbitrate(c, sample, tolerance) == c
  {
  }

  /** Arbitrating twice against the same reading changes nothing more. */
  lemma ArbitrateIdempotent(c: Candidate, sample: Option<TfLuna.Sample>, tolerance: real)
    requires 0.0 <= tolerance
    ensures Arbitrate(Arbitrate(c, sample, tolerance), sample, tolerance) == Arbitrate(c, sample, tolerance)
  {
  }
}

=== FILE: main_variant.dfy ===
/** The hazard-threshold deployment (main.py): general and crosswalk YOLO
    boxes become candidates, a nearest-pixel fallback covers frames without
    any, the LiDAR corrects the closest one, and a message goes out on every
    frame where some candidate is closer than 500 cm. There is no debounce. */
module MainVariant {
  import opened Wrappers
  import opened Sorting
  import opened StereoDepth
  import opened Fusion
  import Stats
  import TfLuna

  const ValidDispMin: real := 1.0
  const ValidDispMax: real := 128.0
  /** Upper bound on accepted distances (cm). */
  const MaxRangeCm: real := 5000.0
  /** Fallback pixels at or below this distance (cm) are border noise. */
  const NoiseFloorCm: real := 21.0
  const LidarToleranceCm: real := 100.0
  const HazardDistanceCm: real := 500.0
  const ObstacleName: string := "obstacle"

  /** `get_direction`: the left and right thirds of the image, else ahead. */
  function GetDirection(x: nat, width: nat): (d: Direction)
    ensures d == Left <==> (x as real) < (width as real) / 3.0
    ensures d == Right <==> (x as real) > 2.0 * (width as real) / 3.0
  {
    if (x as real) < (width as real) / 3.0 then Left
    else if (x as real) > 2.0 * (width as real) / 3.0 then Right
    else Ahead
  }

  /** Moving right never moves the direction left: left <= ahead <= right. */
  lemma GetDirectionMonotone(x: nat, x': nat, width: nat)
    requires x <= x'
    ensures Rank(GetDirection(x, width)) <= Rank(GetDirection(x', width))
  {
  }

  /** `is_hazard`. */
  predicate IsHazard(c: Candidate) {
    c.distance < HazardDistanceCm
  }

  /** The hazard test is a strict threshold at 500 cm: an object at exactly
      500 cm is not a hazard, and anything nearer than a hazard is one too. */
  lemma HazardThreshold(c: Candidate, d: Candidate)
    ensures c.distance == HazardDistanceCm ==> !IsHazard(c)
    ensures IsHazard(c) && d.distance <= c.distance ==> IsHazard(d)
    ensures !IsHazard(c) && c.distance <= d.distance ==> !IsHazard(d)
  {
  }

  /** A reading `get_object_distance` keeps: present and strictly inside (0, MaxRangeCm). */
  predicate Accepted(o: Option<real>) {
    o.Some? && 0.0 < o.value < MaxRangeCm
  }

  /** The distance kept if it lies strictly inside (0, MaxRangeCm). */
  function InRange(o: Option<real>): (r: seq<real>)
    ensures |r| <= 1
    ensures r != [] <==> Accepted(o)
    ensures r != [] ==> r[0] == o.value
    ensures forall i :: 0 <= i < |r| ==> 0.0 < r[i] < MaxRangeCm
  {
    if Accepted(o) then [o.value] else []
  }

  /** The centre pixel reprojected at its own disparity: present exactly
      when the centre pixel is valid, and then that pixel's distance. */
  function CenterReading(g: Grid, b: Box, z: Reprojection): (r: Option<real>)
    requires CenterY(b) < |g| && CenterX(b) < |g[CenterY(b)]|
    ensures var p := Pixel(CenterX(b), CenterY(b), g[CenterY(b)][CenterX(b)]);
      && (r.Some? <==> ValidPixelOf(g, p, ValidDispMin, ValidDispMax))
      && (r.Some? ==> r.value == PixelDistance(z, p))
  {
    var d := g[CenterY(b)][CenterX(b)];
    if ValidDispMin < d < ValidDispMax then Some(PixelDistance(z, Pixel(CenterX(b), CenterY(b), d))) else None
  }

  /** The box centre reprojected at the median disparity. The median of
      valid disparities exceeds 1, so the `median_disp > 0` guard always
      passes and the reading is always present: the centre's distance at the
      median of the box's valid pixels. */
  function MedianReading(g: Grid, b: Box, z: Reprojection): (r: Option<real>)
    requires HasValidPixel(g, b, ValidDispMin, ValidDispMax)
    ensures BoxValues(ValidPixels(g, ValidDispMin, ValidDispMax), b) != []
    ensures r == Some(BoxDistance(z, b, Stats.Median(BoxValues(ValidPixels(g, ValidDispMin, ValidDispMax), b))))
  {
    var m := RegionMedian(g, b, ValidDispMin, ValidDispMax).value;
    if m > 0.0 then Some(BoxDistance(z, b, m)) else None
  }

  /** The readings kept out of a centre and a median reading: the centre
      one first if accepted, then the median one if accepted. */
  function Collect(center: Option<real>, median: Option<real>): (r: seq<real>)
    ensures |r| == (if Accepted(center) then 1 else 0) + (if Accepted(median) then 1 else 0)
    ensures Accepted(center) ==> r[0] == center.value
    ensures Accepted(median) ==> r[|r| - 1] == median.value
    ensures forall i :: 0 <= i < |r| ==> 0.0 < r[i] < MaxRangeCm
  {
    InRange(center) + InRange(median)
  }

  /** The in-range distances `get_object_distance` collects: the centre
      reading if accepted, then the median reading if accepted. */
  function Readings(g: Grid, b: Box, z: Reprojection): (r: seq<real>)
    requires CenterY(b) < |g| && CenterX(b) < |g[CenterY(b)]|
    requires HasValidPixel(g, b, ValidDispMin, ValidDispMax)
    ensures |r| == (if Accepted(CenterReading(g, b, z)) then 1 else 0) + (if Accepted(MedianReading(g, b, z)) then 1 else 0)
    ensures Accepted(CenterReading(g, b, z)) ==> r[0] == CenterReading(g, b, z).value
    ensures Accepted(MedianReading(g, b, z)) ==> r[|r| - 1] == MedianReading(g, b, z).value
    ensures forall i :: 0 <= i < |r| ==> 0.0 < r[i] < MaxRangeCm
  {
    Collect(CenterReading(g, b, z), MedianReading(g, b, z))
  }

  /** When the centre pixel carries the box's median disparity, both
      readings coincide and `get_object_distance` returns that one distance
      (the median of two equal readings), or None when it is out of range. */
  lemma CenterAgreesWithMedian(g: Grid, b: Box, z: Reprojection, width: nat, height: nat)
    requires IsMap(g, width, height) && InFrame(b, width, height)
    requires HasValidPixel(g, b, ValidDispMin, ValidDispMax)
    requires CenterY(b) < |g| && CenterX(b) < |g[CenterY(b)]|
    requires g[CenterY(b)][CenterX(b)] == RegionMedian(g, b, ValidDispMin, ValidDispMax).value
    ensures CenterReading(g, b, z) == MedianReading(g, b, z)
    ensures ObjectDistance(b, g, z, width, height)
      == if Accepted(MedianReading(g, b, z)) then MedianReading(g, b, z) else None
  {
    var ds := Readings(g, b, z);
    if Accepted(MedianReading(g, b, z)) {
      assert |ds| == 2 && ds[0] == ds[1];
    }
  }

  /** numpy's median of the one or two readings: the reading itself, or their mean. */
  function MedianOfReadings(ds: seq<real>): (r: real)
    requires 1 <= |ds| <= 2
    requires forall i :: 0 <= i < |ds| ==> 0.0 < ds[i] < MaxRangeCm
    ensures 0.0 < r < MaxRangeCm
    ensures |ds| == 1 ==> r == ds[0]
    ensures |ds| == 2 ==> r == (ds[0] + ds[1]) / 2.0
  {
    Stats.MedianWithin(ds, 0.0, MaxRangeCm);
    Stats.MedianOfOneOrTwo(ds);
    Stats.Median(ds)
  }

  /** `get_object_distance`: None without a valid disparity in the box or
      without an in-range reading; with a valid disparity the centre pixel
      it indexes lies in the map; otherwise the median of the one or two
      in-range readings, which is itself in range. */
  function ObjectDistance(b: Box, g: Grid, z: Reprojection, width: nat, height: nat): (r: Option<real>)
    requires IsMap(g, width, height) && InFrame(b, width, height)
    ensures !HasValidPixel(g, b, ValidDispMin, ValidDispMax) ==> r.None?
    ensures HasValidPixel(g, b, ValidDispMin, ValidDispMax) ==> CenterY(b) < |g| && CenterX(b) < |g[CenterY(b)]|
    ensures HasValidPixel(g, b, ValidDispMin, ValidDispMax) ==>
      var ds := Readings(g, b, z);
      && (r.None? <==> ds == [])
      && (r.Some? ==> 0.0 < r.value < MaxRangeCm)
      && (r.Some? && |ds| == 1 ==> r.value == ds[0])
      && (r.Some? && |ds| == 2 ==> r.value == (ds[0] + ds[1]) / 2.0)
  {
    if RegionMedian(g, b, ValidDispMin, ValidDispMax).None? then None
    else
      CenterInMap(g, b, width, height, ValidDispMin, ValidDispMax);
      var ds := Readings(g, b, z);
      if ds == [] then None else Some(MedianOfReadings(ds))
  }

  /** One box of the detection loop: a valid disparity in the box and a
      median-derived distance in (0, 5000] give a candidate with a direction. */
  function LoopCandidate(d: Detection, g: Grid, z: Reprojection, width: nat): (r: Option<Candidate>)
    ensures r.Some? <==>
      && HasValidPixel(g, d.box, ValidDispMin, ValidDispMax)
      && 0.0 < BoxDistance(z, d.box, RegionMedian(g, d.box, ValidDispMin, ValidDispMax).value) <= MaxRangeCm
    ensures r.Some? ==> r.value.name == d.name && r.value.direction == Some(GetDirection(CenterX(d.box), width))
    ensures r.Some? ==> r.value.distance == BoxDistance(z, d.box, RegionMedian(g, d.box, ValidDispMin, ValidDispMax).value)
  {
    match RegionMedian(g, d.box, ValidDispMin, ValidDispMax)
    case None => None
    case Some(m) =>
      var distance := BoxDistance(z, d.box, m);
      if distance <= 0.0 || distance > MaxRangeCm then None
      else Some(Candidate(d.name, distance, Some(GetDirection(CenterX(d.box), width))))
  }

  /** The loop accepts a median-derived distance of exactly 5000 cm, which
      `get_object_distance` would reject. */
  lemma LoopAcceptsRangeBoundary(d: Detection, g: Grid, z: Reprojection, width: nat)
    requires HasValidPixel(g, d.box, ValidDispMin, ValidDispMax)
    requires BoxDistance(z, d.box, RegionMedian(g, d.box, ValidDispMin, ValidDispMax).value) == MaxRangeCm
    ensures LoopCandidate(d, g, z, width).Some?
    ensures InRange(MedianReading(g, d.box, z)) == []
  {
  }

  /** `LoopCandidate` as the per-box step of the detection loop. */
  function LoopCandidateOf(g: Grid, z: Reprojection, width: nat): Detection -> Option<Candidate> {
    d => LoopCandidate(d, g, z, width)
  }

  /** The detection loop over all boxes: a candidate is produced exactly for
      the boxes `LoopCandidate` accepts. */
  function LoopCandidates(dets: seq<Detection>, g: Grid, z: Reprojection, width: nat): (r: seq<Candidate>)
    ensures |r| <= |dets|
    ensures forall c :: c in r <==> exists i :: 0 <= i < |dets| && LoopCandidate(dets[i], g, z, width) == Some(c)
    ensures forall c :: c in r ==> c.direction.Some? && 0.0 < c.distance <= MaxRangeCm
    ensures r == [] <==> forall i :: 0 <= i < |dets| ==> LoopCandidate(dets[i], g, z, width).None?
  {
    FilterMap(dets, LoopCandidateOf(g, z, width))
  }

  /** The detection loop appends one candidate per box that yields one, in
      box order, and nothing else. */
  lemma LoopCandidatesEnumerate(dets: seq<Detection>, g: Grid, z: Reprojection, width: nat)
    ensures exists idx :: Enumerates(dets, LoopCandidateOf(g, z, width), LoopCandidates(dets, g, z, width), idx)
  {
    var f := LoopCandidateOf(g, z, width);
    FilterMapEnumerates(dets, f);
    var idx :| Enumerates(dets, f, FilterMap(dets, f), idx);
    assert LoopCandidates(dets, g, z, width) == FilterMap(dets, f);
    assert Enumerates(dets, f, LoopCandidates(dets, g, z, width), idx);
  }

  /** The fallback: the nearest valid pixel becomes an "obstacle" without a
      direction if its distance is above the noise floor and within (0, 5000]. */
  function Fallback(g: Grid, z: Reprojection): (r: Option<Candidate>)
    ensures r.Some? ==> r.value.name == ObstacleName && r.value.direction.None?
    ensures r.Some? ==> NoiseFloorCm < r.value.distance <= MaxRangeCm
    ensures r.Some? ==>
      && Nearest(g, z, ValidDispMin, ValidDispMax).Some?
      && r.value.distance == PixelDistance(z, Nearest(g, z, ValidDispMin, ValidDispMax).value)
    ensures r.Some? ==> forall q :: ValidPixelOf(g, q, ValidDispMin, ValidDispMax) ==> r.value.distance <= PixelDistance(z, q)
    ensures r.None? <==>
      || (forall p :: !ValidPixelOf(g, p, ValidDispMin, ValidDispMax))
      || !(NoiseFloorCm < PixelDistance(z, Nearest(g, z, ValidDispMin, ValidDispMax).value) <= MaxRangeCm)
  {
    match Nearest(g, z, ValidDispMin, ValidDispMax)
    case None => None
    case Some(p) =>
      var distance := PixelDistance(z, p);
      if distance <= NoiseFloorCm then None
      else if distance <= 0.0 || distance > MaxRangeCm then None
      else Some(Candidate(ObstacleName, distance, None))
  }

  /** One camera frame and the serial buffer as the loop finds them. */
  datatype FrameInput = FrameInput(
    general: seq<Detection>,
    crosswalk: seq<Detection>,
    disparity: Grid,
    width: nat,
    height: nat,
    serial: seq<TfLuna.byte>)

  /** The frame's candidates: the loop's over general then crosswalk boxes,
      or else at most the fallback obstacle. */
  function FrameCandidates(f: FrameInput, z: Reprojection): (r: seq<Candidate>)
    ensures LoopCandidates(f.general + f.crosswalk, f.disparity, z, f.width) != [] ==>
      r == LoopCandidates(f.general + f.crosswalk, f.disparity, z, f.width)
    ensures LoopCandidates(f.general + f.crosswalk, f.disparity, z, f.width) == [] ==>
      (r == [] <==> Fallback(f.disparity, z).None?)
    ensures LoopCandidates(f.general + f.crosswalk, f.disparity, z, f.width) == [] && r != [] ==>
      r == [Fallback(f.disparity, z).value]
  {
    var found := LoopCandidates(f.general + f.crosswalk, f.disparity, z, f.width);
    if found != [] then found
    else
      match Fallback(f.disparity, z)
      case None => []
      case Some(c) => [c]
  }

  /** The sorted candidates with the LiDAR correction applied to the first:
      the list the hazard filter runs over. */
  function AfterLidar(cands: seq<Candidate>, sample: Option<TfLuna.Sample>): (r: seq<Candidate>)
    requires |cands| > 0
    ensures |r| == |cands|
    ensures r[0] == Arbitrate(Closest(cands), sample, LidarToleranceCm)
    ensures multiset(r[1..]) + multiset{Closest(cands)} == multiset(cands)
    ensures forall i :: 1 <= i < |r| ==> Closest(cands).distance <= r[i].distance
  {
    var sorted := SortBy(cands, ByDistance);
    SortedSplit(cands);
    [Arbitrate(sorted[0], sample, LidarToleranceCm)] + sorted[1..]
  }

  /** The sorted list is its head, the closest candidate, followed by the
      other candidates, none of them closer. */
  lemma SortedSplit(cands: seq<Candidate>)
    requires |cands| > 0
    ensures var sorted := SortBy(cands, ByDistance);
      && Closest(cands) == sorted[0]
      && multiset(sorted[1..]) + multiset{sorted[0]} == multiset(cands)
      && forall i :: 1 <= i < |sorted| ==> sorted[0].distance <= sorted[i].distance
  {
  }

  /** Candidate lists holding the same candidates hold the same hazards. */
  lemma SameHazards(a: seq<Candidate>, b: seq<Candidate>)
    requires multiset(a) == multiset(b)
    ensures (exists c :: c in a && IsHazard(c)) <==> (exists c :: c in b && IsHazard(c))
  {
    SameElements(a, b);
  }

  /** What a frame ends in: skipped for lack of candidates, no hazard,
      a message, or the KeyError on a fallback obstacle's missing direction. */
  datatype Report = Skipped | NoHazard | Sent(message: Message) | MissingDirection

  datatype Step = Step(report: Report, serial: seq<TfLuna.byte>)

  /** The candidate the message describes: the closest one with label and
      direction kept; without a LiDAR sample it is unchanged, with one its
      distance ends within 100 cm of the sample. */
  function Reported(f: FrameInput, z: Reprojection): Candidate
    requires FrameCandidates(f, z) != []
  {
    Select(FrameCandidates(f, z), TfLuna.Poll(f.serial).0, LidarToleranceCm)
  }

  /** Some candidate, after the correction, is a hazard. */
  ghost predicate AnyHazard(f: FrameInput, z: Reprojection)
    requires FrameCandidates(f, z) != []
  {
    exists c :: c in AfterLidar(FrameCandidates(f, z), TfLuna.Poll(f.serial).0) && IsHazard(c)
  }

  /** One iteration of `capture_and_detect` after detection and the depth map. */
  function Frame(f: FrameInput, z: Reprojection): (r: Step)
    ensures r.report.Skipped? <==> FrameCandidates(f, z) == []
    ensures r.report.Skipped? ==> r.serial == f.serial
    ensures !r.report.Skipped? ==> r.serial == TfLuna.Poll(f.serial).1
    ensures !r.report.Skipped? ==> (r.report.NoHazard? <==> !AnyHazard(f, z))
    ensures r.report.Sent? ==>
      && Reported(f, z).direction.Some?
      && r.report.message == Message(Reported(f, z).name, Reported(f, z).direction.value, Reported(f, z).distance)
    ensures r.report.MissingDirection? <==> !r.report.Skipped? && AnyHazard(f, z) && Reported(f, z).direction.None?
  {
    var cands := FrameCandidates(f, z);
    if cands == [] then Step(Skipped, f.serial)
    else
      var (sample, rest) := TfLuna.Poll(f.serial);
      var after := AfterLidar(cands, sample);
      if !(exists c :: c in after && IsHazard(c)) then Step(NoHazard, rest)
      else if after[0].direction.None? then Step(MissingDirection, rest)
      else Step(Sent(Message(after[0].name, after[0].direction.value, after[0].distance)), rest)
  }

  /** The KeyError happens exactly when no box gave a candidate, the
      fallback obstacle did, and after the LiDAR correction it is a hazard. */
  lemma MissingDirectionIffFallbackHazard(f: FrameInput, z: Reprojection)
    ensures Frame(f, z).report.MissingDirection? <==>
      && LoopCandidates(f.general + f.crosswalk, f.disparity, z, f.width) == []
      && Fallback(f.disparity, z).Some?
      && IsHazard(Arbitrate(Fallback(f.disparity, z).value, TfLuna.Poll(f.serial).0, LidarToleranceCm))
  {
  }

  /** Without a LiDAR sample (too few bytes buffered or a bad header), a
      frame reports (or fails on the missing direction) exactly when one of
      its candidates is closer than 500 cm. */
  lemma HazardWithoutSample(f: FrameInput, z: Reprojection)
    requires TfLuna.Poll(f.serial).0.None?
    ensures (Frame(f, z).report.Sent? || Frame(f, z).report.MissingDirection?) <==>
      exists c :: c in FrameCandidates(f, z) && IsHazard(c)
  {
    var cands := FrameCandidates(f, z);
    var r := Frame(f, z);
    if cands != [] {
      HazardsWithoutCorrection(cands);
      assert (r.report.Sent? || r.report.MissingDirection?) <==> AnyHazard(f, z);
    } else {
      assert r.report.Skipped?;
    }
  }

  /** Without a sample the corrected list is a reordering of the
      candidates, so it holds a hazard exactly when they do. */
  lemma HazardsWithoutCorrection(cands: seq<Candidate>)
    requires |cands| > 0
    ensures (exists c :: c in AfterLidar(cands, None) && IsHazard(c)) <==> exists c :: c in cands && IsHazard(c)
  {
    var sorted := SortBy(cands, ByDistance);
    var after := AfterLidar(cands, None);
    assert after[0] == sorted[0];
    assert after == sorted;
    SameHazards(after, cands);
  }

  /** A message can describe an object that is not a hazard: only when the
      LiDAR moved the closest candidate from under 500 cm to 500 cm or more
      and another candidate is still a hazard. */
  lemma MessageAboutNonHazard(f: FrameInput, z: Reprojection)
    requires Frame(f, z).report.Sent?
    requires Frame(f, z).report.message.distance >= HazardDistanceCm
    ensures TfLuna.Poll(f.serial).0.Some?
    ensures IsHazard(Closest(FrameCandidates(f, z)))
    ensures |FrameCandidates(f, z)| >= 2
  {
    var r := Frame(f, z);
    var cands := FrameCandidates(f, z);
    assert cands != [] && AnyHazard(f, z);
    var sample := TfLuna.Poll(f.serial).0;
    var after := AfterLidar(cands, sample);
    var head := Reported(f, z);
    assert after[0] == head;
    assert r.report.message.distance == head.distance;
    HazardBehindHead(cands, sample);
  }

  /** If the corrected head of the list is no hazard but some entry is, the
      entry is further down, the uncorrected head was a hazard too, and the
      correction came from a LiDAR sample. */
  lemma HazardBehindHead(cands: seq<Candidate>, sample: Option<TfLuna.Sample>)
    requires |cands| > 0
    requires exists c :: c in AfterLidar(cands, sample) && IsHazard(c)
    requires !IsHazard(AfterLidar(cands, sample)[0])
    ensures sample.Some? && IsHazard(Closest(cands)) && |cands| >= 2
  {
  }
}

=== FILE: report_gate.dfy ===
/** expov3.py's report gate: the debounce on the selected object's label and
    distance trend, and the five-second send cooldown. The state that
    expov3.py keeps in loop locals and a function attribute is an explicit
    value here. */
module ReportGate {
  import opened Wrappers
  import opened Fusion

  /** Report again for the same label only once it is this much closer (cm). */
  const DebounceCm: real := 100.0
  /** Minimum time between two sent messages (seconds). */
  const CooldownSeconds: real := 5.0

  /** Last reported label and distance (None before the first report) and the
      time of the last message actually sent. */
  datatype GateState = GateState(lastName: Option<string>, lastDistance: Option<real>, lastSent: real)

  /** The state at process start: nothing reported, `last_sent_time` = 0. */
  const Start: GateState := GateState(None, None, 0.0)

  /** The report decision: a different label than last reported, or the same
      label at least `DebounceCm` closer than last reported. */
  predicate ShouldReport(s: GateState, c: Candidate) {
    || s.lastName != Some(c.name)
    || (s.lastDistance.Some? && s.lastDistance.value - c.distance >= DebounceCm)
  }

  /** A new label is always reported; the label last reported is reported
      again exactly when a distance was recorded and the object is now at
      least 100 cm closer, and then also at any smaller distance. */
  lemma ShouldReportCases(s: GateState, c: Candidate, d: real)
    ensures s.lastName != Some(c.name) ==> ShouldReport(s, c)
    ensures s.lastName == Some(c.name) ==>
      (ShouldReport(s, c) <==> s.lastDistance.Some? && c.distance <= s.lastDistance.value - DebounceCm)
    ensures ShouldReport(s, c) && d <= c.distance ==> ShouldReport(s, c.(distance := d))
  {
  }

  datatype GateResult = GateResult(state: GateState, sent: Option<Message>)

  /** The direction a message announces: the candidate's own, or "ahead"
      for a fallback obstacle that carries none. */
  function SpokenDirection(c: Candidate): Direction {
    if c.direction.Some? then c.direction.value else Ahead
  }

  /** One pass of the gate for the frame's selected candidate `c` at time
      `now`. A reported candidate updates the last label and distance whether
      or not the cooldown lets the message out; a fallback obstacle without a
      direction is announced as "ahead". */
  function Gate(s: GateState, c: Candidate, now: real): (r: GateResult)
    ensures r.sent.Some? <==> ShouldReport(s, c) && now - s.lastSent >= CooldownSeconds
    ensures r.sent.Some? ==> r.sent.value == Message(c.name, SpokenDirection(c), c.distance)
    ensures r.sent.Some? ==> r.state.lastSent == now
    ensures r.sent.None? ==> r.state.lastSent == s.lastSent
    ensures ShouldReport(s, c) ==> r.state.lastName == Some(c.name) && r.state.lastDistance == Some(c.distance)
    ensures !ShouldReport(s, c) ==> r.state == s
  {
    if ShouldReport(s, c) then
      var send := now - s.lastSent >= CooldownSeconds;
      var sent := if send then Some(Message(c.name, SpokenDirection(c), c.distance)) else None;
      var lastSent := if send then now else s.lastSent;
      GateResult(GateState(Some(c.name), Some(c.distance), lastSent), sent)
    else
      GateResult(s, None)
  }

  /** The last label and the last distance are set together. */
  ghost predicate Consistent(s: GateState) {
    s.lastName.None? <==> s.lastDistance.None?
  }

  lemma GateKeepsConsistent(s: GateState, c: Candidate, now: real)
    requires Consistent(s)
    ensures Consistent(Gate(s, c, now).state)
  {
  }

  /** The first object ever selected is reported, and sent at any time at
      least five seconds after the epoch. */
  lemma FirstObjectReported(c: Candidate, now: real)
    ensures ShouldReport(Start, c)
    ensures now >= CooldownSeconds ==> Gate(Start, c, now).sent.Some?
  {
  }

  /** Right after a report, the same candidate again is suppressed and
      leaves the state as it is. */
  lemma RepeatSuppressed(s: GateState, c: Candidate, t1: real, t2: real)
    requires ShouldReport(s, c)
    ensures Gate(Gate(s, c, t1).state, c, t2) == GateResult(Gate(s, c, t1).state, None)
  {
  }

  /** The debounce examples: after "person" at 300 cm, "person" at 250 cm is
      suppressed, "person" at 190 cm and "car" at 290 cm are reported. */
  lemma DebounceExamples(t: real, dir: Option<Direction>)
    ensures !ShouldReport(GateState(Some("person"), Some(300.0), t), Candidate("person", 250.0, dir))
    ensures ShouldReport(GateState(Some("person"), Some(300.0), t), Candidate("person", 190.0, dir))
    ensures ShouldReport(GateState(Some("person"), Some(300.0), t), Candidate("car", 290.0, dir))
  {
  }
}

=== FILE: sorting.dfy ===
/** Ordering helpers shared by both variants: Python's stable `sort(key=...)`,
    modelled as an insertion sort, and numpy's `argmin`, which returns the
    first index holding the minimum. */
module Sorting {

  /** `s` is in non-decreasing order of `key`. */
  predicate SortedBy<T>(s: seq<T>, key: T -> real) {
    forall i, j :: 0 <= i < j < |s| ==> key(s[i]) <= key(s[j])
  }

  /** Inserts `x` before the first element whose key is not smaller, so that
      elements inserted earlier with an equal key keep their place after it. */
  function Insert<T>(x: T, s: seq<T>, key: T -> real): (r: seq<T>)
    ensures |r| == |s| + 1
    ensures multiset(r) == multiset(s) + multiset{x}
    ensures r[0] == x || (|s| > 0 && r[0] == s[0])
  {
    if s == [] || key(x) <= key(s[0]) then
      [x] + s
    else
      assert s == [s[0]] + s[1..];
      [s[0]] + Insert(x, s[1..], key)
  }

  /** Inserting into a sorted sequence keeps it sorted. */
  lemma {:induction false} InsertSorted<T>(x: T, s: seq<T>, key: T -> real)
    requires SortedBy(s, key)
    ensures SortedBy(Insert(x, s, key), key)
  {
    if s != [] && key(s[0]) < key(x) {
      var tail := Insert(x, s[1..], key);
      InsertSorted(x, s[1..], key);
      assert key(s[0]) <= key(tail[0]);
      var r := [s[0]] + tail;
      assert r == Insert(x, s, key);
      forall i, j | 0 <= i < j < |r| ensures key(r[i]) <= key(r[j]) {
        if i == 0 {
          assert r[j] == tail[j - 1];
          if j > 1 {
            assert key(tail[0]) <= key(tail[j - 1]);
          }
        } else {
          assert r[i] == tail[i - 1] && r[j] == tail[j - 1];
        }
      }
    }
  }

  /** Stable sort of `s` by `key` (Python's list sort with a key function). */
  function SortBy<T>(s: seq<T>, key: T -> real): (r: seq<T>)
    ensures |r| == |s|
    ensures multiset(r) == multiset(s)
    ensures SortedBy(r, key)
  {
    if s == [] then []
    else
      var tail := SortBy(s[1..], key);
      assert s == [s[0]] + s[1..];
      InsertSorted(s[0], tail, key);
      Insert(s[0], tail, key)
  }

  /** Two sequences holding the same multiset of elements have the same members. */
  lemma SameElements<T>(a: seq<T>, b: seq<T>)
    requires multiset(a) == multiset(b)
    ensures forall i :: 0 <= i < |a| ==> a[i] in b
    ensures forall i :: 0 <= i < |b| ==> b[i] in a
  {
    forall i | 0 <= i < |a| ensures a[i] in b {
      assert a[i] in multiset(a);
    }
    forall i | 0 <= i < |b| ensures b[i] in a {
      assert b[i] in multiset(b);
    }
  }

  /** Index of the first element of `s` with the smallest key (numpy's argmin). */
  function ArgMinFirst<T>(s: seq<T>, key: T -> real): (i: nat)
    requires |s| > 0
    ensures i < |s|
    ensures forall j :: 0 <= j < |s| ==> key(s[i]) <= key(s[j])
    ensures forall j :: 0 <= j < i ==> key(s[i]) < key(s[j])
  {
    if |s| == 1 then 0
    else
      var k := 1 + ArgMinFirst(s[1..], key);
      assert forall j :: 1 <= j < |s| ==> s[j] == s[1..][j - 1];
      if key(s[0]) <= key(s[k]) then 0 else k
  }

  /** The head of the stable sort is the first element with the minimum key:
      taking `sorted(...)[0]` is the same as a first-occurrence argmin. */
  lemma {:induction false} SortHeadIsFirstMin<T>(s: seq<T>, key: T -> real)
    requires |s| > 0
    ensures SortBy(s, key)[0] == s[ArgMinFirst(s, key)]
  {
    if |s| > 1 {
      SortHeadIsFirstMin(s[1..], key);
    }
  }
}

=== FILE: stats.dfy ===
/** numpy's `median` over a non-empty list of reals: the middle element of the
    sorted list, or the mean of the two middle elements for an even count. */
module Stats {
  import opened Sorting

  function Identity(x: real): real { x }

  /** The middle of a sorted list: its middle element, or the mean of its
      two middle elements for an even length. */
  function Middle(t: seq<real>): (m: real)
    requires |t| > 0 && SortedBy(t, Identity)
    ensures t[(|t| - 1) / 2] <= m <= t[|t| / 2]
  {
    var n := |t|;
    if n % 2 == 1 then t[n / 2]
    else
      assert Identity(t[n / 2 - 1]) <= Identity(t[n / 2]);
      (t[n / 2 - 1] + t[n / 2]) / 2.0
  }

  function Median(s: seq<real>): (m: real)
    requires |s| > 0
    ensures exists i :: 0 <= i < |s| && s[i] <= m
    ensures exists j :: 0 <= j < |s| && m <= s[j]
  {
    var t := SortBy(s, Identity);
    assert t[(|t| - 1) / 2] in multiset(s) && t[|t| / 2] in multiset(s);
    Middle(t)
  }

  /** If every sample lies in the open interval (lo, hi), so does the median. */
  lemma MedianWithin(s: seq<real>, lo: real, hi: real)
    requires |s| > 0
    requires forall i :: 0 <= i < |s| ==> lo < s[i] < hi
    ensures lo < Median(s) < hi
  {
  }

  /** The median of a list whose samples all equal `d` is `d`. */
  lemma MedianOfConstant(s: seq<real>, d: real)
    requires |s| > 0
    requires forall i :: 0 <= i < |s| ==> s[i] == d
    ensures Median(s) == d
  {
  }

  /** The one- and two-element medians that main.py's `get_object_distance`
      takes: the value itself, and the mean of the two. */
  lemma MedianOfOneOrTwo(s: seq<real>)
    requires 1 <= |s| <= 2
    ensures |s| == 1 ==> Median(s) == s[0]
    ensures |s| == 2 ==> Median(s) == (s[0] + s[1]) / 2.0
  {
    if |s| == 1 || s[0] <= s[1] {
      MedianOfSorted(s);
    } else {
      MedianOfDescendingPair(s);
    }
  }

  lemma MedianOfDescendingPair(s: seq<real>)
    requires |s| == 2 && s[1] < s[0]
    ensures Median(s) == (s[0] + s[1]) / 2.0
  {
    var u := [s[1], s[0]];
    assert multiset(s) == multiset(u) by {
      assert s == [s[0]] + [s[1]];
    }
    assert Median(u) == (s[0] + s[1]) / 2.0 by {
      MedianOfSorted(u);
    }
    MedianPermutation(s, u);
  }

  /** The median of an already sorted list is its middle. */
  lemma MedianOfSorted(s: seq<real>)
    requires |s| > 0 && SortedBy(s, Identity)
    ensures Median(s) == Middle(s)
  {
    SortedUnique(SortBy(s, Identity), s);
  }

  /** The head of a sorted list of reals is its least value. */
  lemma HeadIsLeast(a: seq<real>, v: real)
    requires SortedBy(a, Identity)
    requires v in multiset(a)
    ensures a[0] <= v
  {
  }

  /** Dropping the head of a sorted list leaves a sorted list. */
  lemma SortedTail(a: seq<real>)
    requires a != [] && SortedBy(a, Identity)
    ensures SortedBy(a[1..], Identity)
  {
  }

  /** Two sorted lists of reals holding the same values are the same list. */
  lemma {:induction false} SortedUnique(a: seq<real>, b: seq<real>)
    requires SortedBy(a, Identity) && SortedBy(b, Identity)
    requires multiset(a) == multiset(b)
    ensures a == b
    decreases |a|
  {
    assert |a| == |multiset(a)| == |multiset(b)| == |b|;
    if a != [] {
      HeadIsLeast(b, a[0]);
      HeadIsLeast(a, b[0]);
      assert a[0] == b[0];
      assert a == [a[0]] + a[1..] && b == [b[0]] + b[1..];
      assert multiset(a[1..]) == multiset(a) - multiset{a[0]};
      assert multiset(b[1..]) == multiset(b) - multiset{b[0]};
      SortedTail(a);
      SortedTail(b);
      SortedUnique(a[1..], b[1..]);
    }
  }

  /** The median does not depend on the order of the samples. */
  lemma MedianPermutation(s: seq<real>, t: seq<real>)
    requires |s| > 0
    requires multiset(s) == multiset(t)
    ensures |t| > 0 && Median(s) == Median(t)
  {
    assert |t| == |multiset(t)|;
    var ss := SortBy(s, Identity);
    var st := SortBy(t, Identity);
    SortedUnique(ss, st);
  }
}

=== FILE: stereo_depth.dfy ===
/** The disparity map and the two ways the fusion reads depth from it: the
    valid disparities inside a detection box (numpy `disparity[y1:y2, x1:x2]`
    masked to an open interval) and the valid pixel of the whole map whose
    reprojected depth is smallest. */
module StereoDepth {
  import opened Wrappers
  import opened Sorting
  import Stats

  /** Rows of per-pixel disparities, indexed `grid[y][x]`. */
  type Grid = seq<seq<real>>

  /** The Z coordinate, in metres, that `cv2.reprojectImageTo3D` with the
      calibration matrix Q assigns to pixel (x, y) carrying disparity d. */
  type Reprojection = (real, nat, nat) -> real

  /** A disparity map of `height` rows of `width` pixels each. */
  predicate IsMap(g: Grid, width: nat, height: nat) {
    |g| == height && forall y :: 0 <= y < |g| ==> |g[y]| == width
  }

  /** A detection box in pixel coordinates; the region is rows y1..y2-1 and
      columns x1..x2-1, as in a numpy slice. */
  datatype Box = Box(x1: nat, y1: nat, x2: nat, y2: nat)

  /** The box does not extend past the right or bottom border, which the
      detectors guarantee (YOLO clips its boxes; crosswalk boxes are clamped). */
  predicate InFrame(b: Box, width: nat, height: nat) {
    b.x2 <= width && b.y2 <= height
  }

  function CenterX(b: Box): nat { (b.x1 + b.x2) / 2 }
  function CenterY(b: Box): nat { (b.y1 + b.y2) / 2 }

  /** Pixel (x, y) lies in the map and inside box `b`. */
  predicate InBox(g: Grid, b: Box, y: int, x: int) {
    b.y1 <= y < b.y2 && y < |g| && b.x1 <= x < b.x2 && x < |g[y]|
  }

  /** Some pixel inside box `b` carries a disparity strictly inside (lo, hi). */
  ghost predicate HasValidPixel(g: Grid, b: Box, lo: real, hi: real) {
    exists y, x :: InBox(g, b, y, x) && lo < g[y][x] < hi
  }

  /** Python's `row[a:b]` for non-negative bounds: the bounds are clipped to
      the row and an inverted range is empty. */
  function Slice(row: seq<real>, a: nat, b: nat): (r: seq<real>)
    ensures |r| == if a < b && a < |row| then (if b < |row| then b else |row|) - a else 0
    ensures forall i :: 0 <= i < |r| ==> r[i] == row[a + i]
    ensures forall v :: v in r <==> exists x :: a <= x < b && x < |row| && row[x] == v
  {
    var hi := if b < |row| then b else |row|;
    if a < hi then
      assert forall x :: a <= x < hi ==> row[x] == row[a..hi][x - a];
      row[a..hi]
    else []
  }

  /** A non-empty slice is its first element followed by the slice one further on. */
  lemma SliceStep(row: seq<real>, a: nat, b: nat)
    requires a < b && a < |row|
    ensures Slice(row, a, b) == [row[a]] + Slice(row, a + 1, b)
  {
    assert Slice(row, a, b)[1..] == Slice(row, a + 1, b);
  }

  /** The values of `vals` strictly inside (lo, hi), in order (a numpy mask):
      every occurrence of such a value is kept and nothing else. */
  function KeepWithin(vals: seq<real>, lo: real, hi: real): (r: seq<real>)
    ensures |r| <= |vals|
    ensures forall v :: v in r <==> v in vals && lo < v < hi
    ensures forall v :: multiset(r)[v] == if lo < v < hi then multiset(vals)[v] else 0
  {
    if vals == [] then []
    else
      assert vals == [vals[0]] + vals[1..];
      assert forall v :: v in vals <==> v == vals[0] || v in vals[1..];
      (if lo < vals[0] < hi then [vals[0]] else []) + KeepWithin(vals[1..], lo, hi)
  }

  /** Valid disparities of the box rows from `y` downwards: the valid
      pixels of those rows that lie in the box, in row-major order. */
  function RegionRows(g: Grid, b: Box, lo: real, hi: real, y: nat): (r: seq<real>)
    requires b.y1 <= y
    ensures forall v :: v in r <==>
      lo < v < hi && exists yy, x :: y <= yy && InBox(g, b, yy, x) && g[yy][x] == v
    ensures r == BoxValues(GridPixels(g, y, lo, hi), b)
    decreases |g| - y
  {
    if y >= b.y2 || y >= |g| then
      BoxValuesOutside(GridPixels(g, y, lo, hi), b);
      []
    else
      var here := KeepWithin(Slice(g[y], b.x1, b.x2), lo, hi);
      var below := RegionRows(g, b, lo, hi, y + 1);
      assert forall v :: v in here <==>
        lo < v < hi && exists x :: InBox(g, b, y, x) && g[y][x] == v;
      RowBoxValues(g, b, lo, hi, y, 0);
      BoxValuesAppend(RowPixels(g, y, 0, lo, hi), GridPixels(g, y + 1, lo, hi), b);
      here + below
  }

  /** The valid disparities inside box `b` (`region[mask]` in expov3.py):
      exactly the disparities of the map's valid pixels that lie in the box,
      one entry per pixel, in row-major order. */
  function RegionValues(g: Grid, b: Box, lo: real, hi: real): (r: seq<real>)
    ensures forall v :: v in r ==> lo < v < hi
    ensures r != [] <==> HasValidPixel(g, b, lo, hi)
    ensures r == BoxValues(ValidPixels(g, lo, hi), b)
  {
    var r := RegionRows(g, b, lo, hi, b.y1);
    assert r != [] ==> HasValidPixel(g, b, lo, hi) by {
      if r != [] { assert r[0] in r; }
    }
    assert HasValidPixel(g, b, lo, hi) ==> r != [] by {
      if HasValidPixel(g, b, lo, hi) {
        var y, x :| InBox(g, b, y, x) && lo < g[y][x] < hi;
        assert g[y][x] in r;
      }
    }
    RowsAboveBox(g, b, lo, hi, 0);
    r
  }

  /** The median of the valid disparities inside `b`, counted once per
      pixel, or None when the box holds no valid disparity. */
  function RegionMedian(g: Grid, b: Box, lo: real, hi: real): (r: Option<real>)
    ensures r.None? <==> !HasValidPixel(g, b, lo, hi)
    ensures r.Some? ==> lo < r.value < hi
    ensures r.Some? ==>
      && BoxValues(ValidPixels(g, lo, hi), b) != []
      && r.value == Stats.Median(BoxValues(ValidPixels(g, lo, hi), b))
  {
    var vals := RegionValues(g, b, lo, hi);
    if vals == [] then None
    else
      assert forall i :: 0 <= i < |vals| ==> vals[i] in vals;
      Stats.MedianWithin(vals, lo, hi);
      Some(Stats.Median(vals))
  }

  /** Pixel `p` lies inside box `b`. */
  predicate InBoxPixel(p: Pixel, b: Box) {
    b.y1 <= p.y < b.y2 && b.x1 <= p.x < b.x2
  }

  /** The disparities of the pixels of `ps` that lie inside box `b`, in order. */
  function BoxValues(ps: seq<Pixel>, b: Box): (r: seq<real>)
    ensures |r| <= |ps|
  {
    if ps == [] then []
    else (if InBoxPixel(ps[0], b) then [ps[0].disparity] else []) + BoxValues(ps[1..], b)
  }

  lemma {:induction false} BoxValuesAppend(a: seq<Pixel>, c: seq<Pixel>, b: Box)
    ensures BoxValues(a + c, b) == BoxValues(a, b) + BoxValues(c, b)
  {
    if a == [] {
      assert a + c == c;
    } else {
      var head := if InBoxPixel(a[0], b) then [a[0].disparity] else [];
      BoxValuesAppend(a[1..], c, b);
      assert (a + c)[0] == a[0] && (a + c)[1..] == a[1..] + c;
      assert BoxValues(a + c, b) == head + BoxValues(a[1..] + c, b);
      assert BoxValues(a, b) == head + BoxValues(a[1..], b);
    }
  }

  lemma {:induction false} BoxValuesOutside(ps: seq<Pixel>, b: Box)
    requires forall p :: p in ps ==> !InBoxPixel(p, b)
    ensures BoxValues(ps, b) == []
  {
    if ps != [] {
      assert ps[0] in ps;
      assert forall p :: p in ps[1..] ==> p in ps;
      BoxValuesOutside(ps[1..], b);
    }
  }

  /** Row `y`'s valid pixels from column `x` on, restricted to the box, are
      the masked slice of that row from the later of `x` and the box's left
      edge; a row outside the box contributes nothing. */
  lemma {:induction false} RowBoxValues(g: Grid, b: Box, lo: real, hi: real, y: nat, x: nat)
    requires y < |g|
    ensures BoxValues(RowPixels(g, y, x, lo, hi), b)
      == if b.y1 <= y < b.y2 then KeepWithin(Slice(g[y], if x < b.x1 then b.x1 else x, b.x2), lo, hi) else []
    decreases |g[y]| - x
  {
    var row := g[y];
    if x < |row| {
      RowBoxValues(g, b, lo, hi, y, x + 1);
      RowPixelsStep(g, b, lo, hi, y, x);
      var rest := BoxValues(RowPixels(g, y, x + 1, lo, hi), b);
      if !(b.y1 <= y < b.y2) {
        assert rest == [];
      } else if x < b.x1 {
        assert BoxValues(RowPixels(g, y, x, lo, hi), b) == rest;
      } else if b.x2 <= x {
        assert Slice(row, x, b.x2) == [] && Slice(row, x + 1, b.x2) == [];
        assert BoxValues(RowPixels(g, y, x, lo, hi), b) == rest;
      } else {
        var t := Slice(row, x + 1, b.x2);
        var h := if lo < row[x] < hi then [row[x]] else [];
        assert rest == KeepWithin(t, lo, hi);
        assert BoxValues(RowPixels(g, y, x, lo, hi), b) == h + KeepWithin(t, lo, hi);
        SliceStep(row, x, b.x2);
        KeepWithinCons(row[x], t, lo, hi);
      }
    } else {
      assert Slice(row, if x < b.x1 then b.x1 else x, b.x2) == [];
    }
  }

  /** One column of `RowBoxValues`: the pixel at column `x` contributes its
      disparity exactly when it is valid and inside the box. */
  lemma RowPixelsStep(g: Grid, b: Box, lo: real, hi: real, y: nat, x: nat)
    requires y < |g| && x < |g[y]|
    ensures BoxValues(RowPixels(g, y, x, lo, hi), b)
      == (if b.y1 <= y < b.y2 && b.x1 <= x < b.x2 && lo < g[y][x] < hi then [g[y][x]] else [])
         + BoxValues(RowPixels(g, y, x + 1, lo, hi), b)
  {
    var rest := RowPixels(g, y, x + 1, lo, hi);
    var here := if lo < g[y][x] < hi then [Pixel(x, y, g[y][x])] else [];
    assert RowPixels(g, y, x, lo, hi) == here + rest;
    BoxValuesAppend(here, rest, b);
  }

  lemma KeepWithinCons(v: real, s: seq<real>, lo: real, hi: real)
    ensures KeepWithin([v] + s, lo, hi) == (if lo < v < hi then [v] else []) + KeepWithin(s, lo, hi)
  {
    assert ([v] + s)[1..] == s;
  }

  /** Rows above the box contribute nothing to its values. */
  lemma {:induction false} RowsAboveBox(g: Grid, b: Box, lo: real, hi: real, y: nat)
    requires y <= b.y1
    ensures BoxValues(GridPixels(g, y, lo, hi), b) == BoxValues(GridPixels(g, b.y1, lo, hi), b)
    decreases b.y1 - y
  {
    if y < b.y1 && y < |g| {
      RowsAboveBox(g, b, lo, hi, y + 1);
      RowBoxValues(g, b, lo, hi, y, 0);
      BoxValuesAppend(RowPixels(g, y, 0, lo, hi), GridPixels(g, y + 1, lo, hi), b);
    }
  }

  /** Distance in centimetres read at the centre of box `b` after
      reprojecting a map filled with the single disparity `m`
      (`np.full_like(disparity, m)` through Q): the distance of the centre
      pixel as if it carried disparity `m`. */
  function BoxDistance(z: Reprojection, b: Box, m: real): (r: real)
    ensures r == PixelDistance(z, Pixel(CenterX(b), CenterY(b), m))
  {
    100.0 * z(m, CenterX(b), CenterY(b))
  }

  /** A box inside the frame that holds a valid pixel has its centre pixel in the map. */
  lemma CenterInMap(g: Grid, b: Box, width: nat, height: nat, lo: real, hi: real)
    requires IsMap(g, width, height) && InFrame(b, width, height)
    requires HasValidPixel(g, b, lo, hi)
    ensures CenterY(b) < |g| && CenterX(b) < |g[CenterY(b)]|
  {
  }

  /** A box filled with one valid disparity `d` has median disparity `d`. */
  lemma RegionMedianUniform(g: Grid, b: Box, lo: real, hi: real, d: real)
    requires lo < d < hi
    requires exists y, x :: InBox(g, b, y, x)
    requires forall y, x :: InBox(g, b, y, x) ==> g[y][x] == d
    ensures RegionMedian(g, b, lo, hi) == Some(d)
  {
    var y, x :| InBox(g, b, y, x);
    assert HasValidPixel(g, b, lo, hi);
    var vals := RegionValues(g, b, lo, hi);
    assert forall i :: 0 <= i < |vals| ==> vals[i] == d by {
      forall i | 0 <= i < |vals| ensures vals[i] == d {
        assert vals[i] in RegionRows(g, b, lo, hi, b.y1);
      }
    }
    Stats.MedianOfConstant(vals, d);
  }

  /** One pixel of the map with its disparity. */
  datatype Pixel = Pixel(x: nat, y: nat, disparity: real)

  /** `p` comes before `q` in row-major order, the order numpy scans a 2-D array. */
  predicate Before(p: Pixel, q: Pixel) {
    p.y < q.y || (p.y == q.y && p.x < q.x)
  }

  /** `p` is a pixel of the map carrying its own disparity, inside (lo, hi). */
  ghost predicate ValidPixelOf(g: Grid, p: Pixel, lo: real, hi: real) {
    p.y < |g| && p.x < |g[p.y]| && g[p.y][p.x] == p.disparity && lo < p.disparity < hi
  }

  /** Valid pixels of row `y` from column `x` onwards, left to right. */
  function RowPixels(g: Grid, y: nat, x: nat, lo: real, hi: real): (r: seq<Pixel>)
    requires y < |g|
    ensures forall p :: p in r ==> ValidPixelOf(g, p, lo, hi) && p.y == y && x <= p.x
    ensures forall xx :: x <= xx < |g[y]| && lo < g[y][xx] < hi ==> Pixel(xx, y, g[y][xx]) in r
    ensures forall i, j :: 0 <= i < j < |r| ==> Before(r[i], r[j])
    decreases |g[y]| - x
  {
    if x >= |g[y]| then []
    else
      var rest := RowPixels(g, y, x + 1, lo, hi);
      if lo < g[y][x] < hi then
        assert forall j :: 0 <= j < |rest| ==> rest[j] in rest;
        [Pixel(x, y, g[y][x])] + rest
      else rest
  }

  /** Valid pixels of rows `y` onwards, in row-major order. */
  function GridPixels(g: Grid, y: nat, lo: real, hi: real): (r: seq<Pixel>)
    ensures forall p :: p in r ==> ValidPixelOf(g, p, lo, hi) && y <= p.y
    ensures forall yy, xx :: y <= yy < |g| && 0 <= xx < |g[yy]| && lo < g[yy][xx] < hi ==> Pixel(xx, yy, g[yy][xx]) in r
    ensures forall i, j :: 0 <= i < j < |r| ==> Before(r[i], r[j])
    decreases |g| - y
  {
    if y >= |g| then []
    else
      var here := RowPixels(g, y, 0, lo, hi);
      var below := GridPixels(g, y + 1, lo, hi);
      assert forall i :: 0 <= i < |here| ==> here[i] in here;
      assert forall j :: 0 <= j < |below| ==> below[j] in below;
      here + below
  }

  /** Every pixel of the map whose disparity is in (lo, hi), in row-major
      order: the pixels `mask_valid` selects. */
  function ValidPixels(g: Grid, lo: real, hi: real): (r: seq<Pixel>)
    ensures forall p :: p in r <==> ValidPixelOf(g, p, lo, hi)
    ensures forall i, j :: 0 <= i < j < |r| ==> Before(r[i], r[j])
  {
    var r := GridPixels(g, 0, lo, hi);
    assert forall p :: ValidPixelOf(g, p, lo, hi) ==> p in r by {
      forall p | ValidPixelOf(g, p, lo, hi) ensures p in r {
        assert Pixel(p.x, p.y, g[p.y][p.x]) in r;
      }
    }
    r
  }

  /** Distance in centimetres of a pixel reprojected at its own disparity
      (`points_3D[y, x][2] * 100`). */
  function PixelDistance(z: Reprojection, p: Pixel): real {
    100.0 * z(p.disparity, p.x, p.y)
  }

  /** The valid pixel with the smallest reprojected distance, the first in
      row-major order among equals (numpy's argmin over the distances with
      invalid pixels masked to infinity); None when no pixel is valid. */
  function Nearest(g: Grid, z: Reprojection, lo: real, hi: real): (r: Option<Pixel>)
    ensures r.None? <==> forall p :: !ValidPixelOf(g, p, lo, hi)
    ensures r.Some? ==> ValidPixelOf(g, r.value, lo, hi)
    ensures r.Some? ==> forall q :: ValidPixelOf(g, q, lo, hi) ==> PixelDistance(z, r.value) <= PixelDistance(z, q)
    ensures r.Some? ==> forall q :: ValidPixelOf(g, q, lo, hi) && Before(q, r.value) ==> PixelDistance(z, r.value) < PixelDistance(z, q)
  {
    var ps := ValidPixels(g, lo, hi);
    if ps == [] then None
    else
      var key := (p: Pixel) => PixelDistance(z, p);
      var i := ArgMinFirst(ps, key);
      assert ps[i] in ps;
      assert forall q :: q in ps ==> key(ps[i]) <= key(q);
      assert forall q :: q in ps && Before(q, ps[i]) ==> key(ps[i]) < key(q) by {
        forall q | q in ps && Before(q, ps[i]) ensures key(ps[i]) < key(q) {
          var j :| 0 <= j < |ps| && ps[j] == q;
        }
      }
      Some(ps[i])
  }
}

=== FILE: tfluna.dfy ===
/** The TF-Luna single-point LiDAR as both variants poll it once per frame:
    9-byte frames with header 0x59 0x59, then little-endian 16-bit distance
    (cm), signal strength and raw chip temperature, then a checksum byte that
    the code never inspects. */
module TfLuna {
  import opened Wrappers

  newtype byte = x: int | 0 <= x < 256

  const FrameHeader: byte := 0x59
  const FrameLength: nat := 9

  datatype Sample = Sample(distance: int, strength: int, temperature: real)

  /** Little-endian 16-bit value from its low and high byte. */
  function Le16(lo: byte, hi: byte): (v: int)
    ensures 0 <= v < 0x1_0000
    ensures v % 256 == lo as int && v / 256 == hi as int
  {
    lo as int + hi as int * 256
  }

  /** Decodes one 9-byte frame; None when the header bytes are not 0x59 0x59. */
  function Decode(frame: seq<byte>): (r: Option<Sample>)
    requires |frame| == FrameLength
    ensures r.Some? <==> frame[0] == FrameHeader && frame[1] == FrameHeader
    ensures r.Some? ==> 0 <= r.value.distance < 0x1_0000 && 0 <= r.value.strength < 0x1_0000
    ensures r.Some? ==> -256.0 <= r.value.temperature < 0x1_0000 as real / 8.0 - 256.0
  {
    if frame[0] == FrameHeader && frame[1] == FrameHeader then
      Some(Sample(Le16(frame[2], frame[3]),
                  Le16(frame[4], frame[5]),
                  Le16(frame[6], frame[7]) as real / 8.0 - 256.0))
    else
      None
  }

  /** One non-blocking poll of the serial port whose input buffer holds
      `pending`: with more than 8 bytes buffered it reads 9, decodes them and
      discards the rest of the buffer; otherwise it reads nothing. */
  function Poll(pending: seq<byte>): (r: (Option<Sample>, seq<byte>))
    ensures r.0.Some? <==> |pending| >= FrameLength && pending[0] == FrameHeader && pending[1] == FrameHeader
    ensures r.1 == (if |pending| >= FrameLength then [] else pending)
    ensures |pending| >= FrameLength ==> r.0 == Decode(pending[..FrameLength])
  {
    if |pending| > 8 then (Decode(pending[..FrameLength]), []) else (None, pending)
  }

  /** The bytes the sensor sends for a reading (header, three LE16 fields and
      a checksum byte). */
  function Encode(distance: int, strength: int, rawTemperature: int, checksum: byte): (frame: seq<byte>)
    requires 0 <= distance < 0x1_0000 && 0 <= strength < 0x1_0000 && 0 <= rawTemperature < 0x1_0000
    ensures |frame| == FrameLength
  {
    [FrameHeader, FrameHeader,
     (distance % 256) as byte, (distance / 256) as byte,
     (strength % 256) as byte, (strength / 256) as byte,
     (rawTemperature % 256) as byte, (rawTemperature / 256) as byte,
     checksum]
  }

  /** Decoding a frame the sensor sent gives back its reading, whatever the
      checksum byte. */
  lemma DecodeEncode(distance: int, strength: int, rawTemperature: int, checksum: byte)
    requires 0 <= distance < 0x1_0000 && 0 <= strength < 0x1_0000 && 0 <= rawTemperature < 0x1_0000
    ensures Decode(Encode(distance, strength, rawTemperature, checksum))
         == Some(Sample(distance, strength, rawTemperature as real / 8.0 - 256.0))
  {
  }

  /** Every frame with a valid header is the encoding of the reading decoded
      from it. */
  lemma EncodeDecode(frame: seq<byte>)
    requires |frame| == FrameLength && frame[0] == FrameHeader && frame[1] == FrameHeader
    ensures Decode(frame).Some?
    ensures frame == Encode(Le16(frame[2], frame[3]), Le16(frame[4], frame[5]), Le16(frame[6], frame[7]), frame[8])
  {
  }
}

=== FILE: wrappers.dfy ===
/** Shared building blocks of the model: a possibly absent value, and the
    filter-and-map loop that both detection scripts use to collect candidates. */
module Wrappers {

  /** A LiDAR frame that was not read, a box with no valid disparity, a
      candidate without a direction: whatever the scripts leave as `None`. */
  datatype Option<T> = None | Some(value: T)

  /** `idx` lists, in increasing order, exactly the positions of `xs` at
      which `f` yields a value, and `r` holds those values in the same order:
      one entry per such position, nothing else. */
  ghost predicate Enumerates<A, B>(xs: seq<A>, f: A -> Option<B>, r: seq<B>, idx: seq<nat>) {
    && |idx| == |r|
    && (forall k :: 0 <= k < |idx| ==> idx[k] < |xs| && f(xs[idx[k]]) == Some(r[k]))
    && (forall k, l :: 0 <= k < l < |idx| ==> idx[k] < idx[l])
    && (forall i :: 0 <= i < |xs| && f(xs[i]).Some? ==> i in idx)
  }

  /** The values of the `Some` results of `f` over `xs`, in order: the shape
      of a Python loop that appends one item per input when a check passes.
      `FilterMapEnumerates` states the order and the one-per-input count. */
  function FilterMap<A, B(!new)>(xs: seq<A>, f: A -> Option<B>): (r: seq<B>)
    ensures |r| <= |xs|
    ensures forall y :: y in r <==> exists i :: 0 <= i < |xs| && f(xs[i]) == Some(y)
    ensures r == [] <==> forall i :: 0 <= i < |xs| ==> f(xs[i]).None?
  {
    if xs == [] then []
    else
      var rest := FilterMap(xs[1..], f);
      assert forall i :: 1 <= i < |xs| ==> xs[i] == xs[1..][i - 1];
      match f(xs[0])
      case None => rest
      case Some(y) => [y] + rest
  }

  /** The loop's result lists one value per input that yields one, in input
      order, and nothing else. */
  lemma {:induction false} FilterMapEnumerates<A, B(!new)>(xs: seq<A>, f: A -> Option<B>)
    ensures exists idx :: Enumerates(xs, f, FilterMap(xs, f), idx)
  {
    if xs == [] {
      assert FilterMap(xs, f) == [];
      assert Enumerates(xs, f, [], []);
    } else {
      var rest := FilterMap(xs[1..], f);
      FilterMapEnumerates(xs[1..], f);
      EnumeratesStep(xs, f, rest);
      if f(xs[0]).None? {
        assert FilterMap(xs, f) == rest;
      } else {
        assert FilterMap(xs, f) == [f(xs[0]).value] + rest;
      }
    }
  }

  /** Every position of `idx` moved one place to the right. */
  function Shift(idx: seq<nat>): (r: seq<nat>)
    ensures |r| == |idx|
    ensures forall k :: 0 <= k < |r| ==> r[k] == idx[k] + 1
  {
    seq(|idx|, k requires 0 <= k < |idx| => idx[k] + 1)
  }

  /** An enumeration of the tail extends to the whole list: the head's
      position 0 is added in front when `f` yields a value there. */
  lemma EnumeratesStep<A, B>(xs: seq<A>, f: A -> Option<B>, rest: seq<B>)
    requires |xs| > 0 && exists idx :: Enumerates(xs[1..], f, rest, idx)
    ensures f(xs[0]).None? ==> exists idx :: Enumerates(xs, f, rest, idx)
    ensures f(xs[0]).Some? ==> exists idx :: Enumerates(xs, f, [f(xs[0]).value] + rest, idx)
  {
    var idx :| Enumerates(xs[1..], f, rest, idx);
    ShiftSound(xs, f, rest, idx);
    ShiftCovers(xs, f, rest, idx);
    var shifted := Shift(idx);
    if f(xs[0]).None? {
      assert Enumerates(xs, f, rest, shifted);
    } else {
      EnumeratesTake(xs, f, rest, shifted);
    }
  }

  /** The tail's positions, moved right by one, still pick out the tail's values. */
  lemma ShiftSound<A, B>(xs: seq<A>, f: A -> Option<B>, rest: seq<B>, idx: seq<nat>)
    requires |xs| > 0 && Enumerates(xs[1..], f, rest, idx)
    ensures forall k :: 0 <= k < |idx| ==> Shift(idx)[k] < |xs| && f(xs[Shift(idx)[k]]) == Some(rest[k])
    ensures forall k, l :: 0 <= k < l < |idx| ==> Shift(idx)[k] < Shift(idx)[l]
  {
    forall k | 0 <= k < |idx| ensures Shift(idx)[k] < |xs| && f(xs[Shift(idx)[k]]) == Some(rest[k]) {
      assert xs[Shift(idx)[k]] == xs[1..][idx[k]];
    }
  }

  /** Every yielding position after the head is among the shifted positions. */
  lemma ShiftCovers<A, B>(xs: seq<A>, f: A -> Option<B>, rest: seq<B>, idx: seq<nat>)
    requires |xs| > 0 && Enumerates(xs[1..], f, rest, idx)
    ensures forall i :: 1 <= i < |xs| && f(xs[i]).Some? ==> i in Shift(idx)
  {
    var shifted := Shift(idx);
    forall i | 1 <= i < |xs| && f(xs[i]).Some? ensures i in shifted {
      assert xs[i] == xs[1..][i - 1];
      assert i - 1 in idx;
      var k :| 0 <= k < |idx| && idx[k] == i - 1;
      assert shifted[k] == i;
    }
  }

  /** Putting position 0 in front of positions that enumerate the rest of a
      list whose head yields a value enumerates the whole list. */
  lemma EnumeratesTake<A, B>(xs: seq<A>, f: A -> Option<B>, rest: seq<B>, shifted: seq<nat>)
    requires |xs| > 0 && f(xs[0]).Some? && |shifted| == |rest|
    requires forall k :: 0 <= k < |shifted| ==> 0 < shifted[k] < |xs| && f(xs[shifted[k]]) == Some(rest[k])
    requires forall k, l :: 0 <= k < l < |shifted| ==> shifted[k] < shifted[l]
    requires forall i :: 1 <= i < |xs| && f(xs[i]).Some? ==> i in shifted
    ensures Enumerates(xs, f, [f(xs[0]).value] + rest, [0] + shifted)
  {
    var r, idx := [f(xs[0]).value] + rest, [0] + shifted;
    forall k | 0 <= k < |idx| ensures idx[k] < |xs| && f(xs[idx[k]]) == Some(r[k]) {
      if k > 0 { assert idx[k] == shifted[k - 1] && r[k] == rest[k - 1]; }
    }
    forall k, l | 0 <= k < l < |idx| ensures idx[k] < idx[l] {
      if k > 0 { assert idx[k] == shifted[k - 1]; }
      assert idx[l] == shifted[l - 1];
    }
    forall i | 0 <= i < |xs| && f(xs[i]).Some? ensures i in idx {
      if i > 0 { assert i in shifted; }
    }
  }
}
